=== FILE: README.md ===
# Campus bus-and-train widget: the recommendation engine, in Dafny

The widget reads the university's bus timetable feed, a list of hourly rows.
Each row has an hour field, a `bus_right` block (minute tokens and memos) and a
`train_right` block (train tokens for the station). For a chosen building it
answers three questions:

- whether the user can still catch the next bus;
- how urgently they must leave: on-demand service, at leisure, leave now, or
  hurry;
- which train they will reach at the station.

The repository ships the engine twice, and the two versions differ:

- `script.js` searches the raw feed for the first earliest bus from the
  walking arrival. It uses the arrival's minute for every token of an
  on-demand row. It searches trains with `>=`.
- `sites/script.js` first builds time-sorted lists of the buses and trains
  not yet departed, keeping only rows of the current hour or later. It then
  judges only the head of that list. The list is bounded by now, not by the
  walking arrival, so its head may leave before the user could walk there.
  The slack that picks the tier is measured from the walking arrival, as in
  `script.js`, but the wait shown and the twenty-minute walking advisory
  are measured from now. It takes the first listed train strictly after
  the transfer instant.

The model keeps both versions, one module each, over shared modules for what
they have in common:

- `Clock`: time as integer milliseconds from local midnight. `new Date(y, m,
  d, h, min)` on the date of a base instant is `At(base, h, min)`, with the
  same roll-over past 23 h or 59 min.
- `Text`: `split('.')` and its inverse join, `/^\d+$/`, `includes`, and
  `parseInt(s, 10)`.
- `Feed`: the raw rows, with every JSON field optional. Also the bus token
  reading, the on-demand memo flag, the destination table, and
  `parseTrainTimes`, which is the same text in both files.
- `Search`: the first-earliest scan both `findNextBus` and the `script.js`
  `findNextTrain` perform.
- `Sorting`: `Array.prototype.sort` by time, which is stable.
- `Recommendation`: the buildings, the thresholds, and the structured
  advice (`NoBusToday`, `TakeLaterBus`, `Board`). The messages are built from
  this advice.
- `Widget`: `script.js`.
- `SitesWidget`: `sites/script.js`.
- `Versions`: lemmas placing the two versions side by side where they
  differ.

Every duration in the source is a whole number of half minutes. So every
division by 60000 followed by a comparison with 3, 1, 0.5 or 20 minutes
becomes an exact integer comparison on milliseconds.

## Behaviour worth noting

The model does what the code does in each of these points.

- Only `sites/script.js` drops rows of an earlier hour than now. `script.js` reads every row with a digit hour and relies on its `>=` bound instead.
- `script.js` collects trains from every row with a `train_right` block, whatever its hour field holds (script.js:281-291). `findNextTrain` then reads the hour with `parseInt`. A `NaN` hour makes an invalid date, which no comparison accepts, so that train is never chosen (`Widget.TrainCandidatesDated`).
- Hours are not limited to 0–23. Train minutes run up to 99, because the token pattern allows two digits. Bus minutes are any digit string. `new Date` rolls such values over into later hours and days, and `Clock.At` does the same.
- After a missed bus, `script.js` searches again from one minute after that bus, inclusive, with the same `>=` as the first search (script.js:201).
- The train search is inclusive (`>=`) in `script.js` and strict (`>`) in `sites/script.js` (`Versions.TrainAtTransfer`).
- A token of an on-demand row (every token in `script.js`, only a non-digit one in `sites/script.js`) stands for the row's hour at the search instant's minute, with no seconds. In the search instant's own hour such a bus is therefore never after that instant. `script.js` finds it only when the walking arrival falls on a whole minute (`Widget.OnDemandSameHour`), and `sites/script.js` lists it only when now does (`SitesWidget.OnDemandThisHour`). Otherwise the on-demand bus of a later hour, or a scheduled bus, is what is found. A digit token of an on-demand row in `sites/script.js` keeps its own minute, so on a row of the current hour or later that bus is listed, flagged, whenever it is not before now, whether or not now falls on a whole minute (`Versions.OnDemandDigitToken`).
- In `sites/script.js`, a digit token on an on-demand row keeps its own minute and is still flagged (`Versions.OnDemandDigitToken`).
- In `script.js` the missed-bus branch (script.js:199-213) is never taken for any building of the table. The bus found is never before the walking arrival, so the running slack is at least walk minus run, and the branch needs that to be under half a minute (`Widget.MissedNeedsSlowRun`). Every building saves at least a minute by running (`Recommendation.LocationsWellFormed`), so its message is always no bus today or a bus to board (`Widget.NoBuildingMisses`). The hurry tier, like every tier of a boarded bus, names a bus that can be reached on foot (`Widget.BoardedBus`). The branch is still modelled for a general location. There its follow-up wait is at least a minute (`Widget.MissedBusLaterWait`), so the branch for a negative wait is never taken.
- In `sites/script.js` the head bus may leave before the walking arrival, so the missed-bus branch is taken from buildings of the table. Its follow-up wait is not checked and can be negative, for instance from 4号館 (`SitesWidget.MissedWaitCanBeNegative`).

## Model

| member | source | states |
|---|---|---|
| Recommendation.LocationsWellFormed | script.js:6-15 | from every building, running takes at least a minute less than walking, and both are whole half minutes |
| Recommendation.TrainWaitOf | script.js:230-238 | a train wait under an hour is shown as is; an hour or more is split into at least one whole hour and under 60 whole minutes, truncated so they never exceed the wait and fall short of it by under a minute |
| Clock.AtOwnClock | script.js:99-108 | rebuilding an instant from its own date, hour and minute gives it truncated to the minute: never later, under a minute earlier |
| Text.JoinSplit | script.js:65 | `split('.')` loses nothing: joining the pieces with dots gives back the string |
| Text.SplitJoin | script.js:65 | splitting dot-free pieces joined with dots gives back exactly those pieces, in order |
| Text.ContainsOccurs | script.js:96 | `includes` holds exactly when the pattern occurs at some position |
| Text.JsParseIntOfDigits | script.js:135 | on an all-digit string `parseInt(s, 10)` is the string's decimal value, never `NaN` |
| Feed.IsOnDemandOccurs | script.js:94-96 | the on-demand flag is set exactly when the marker 適時運行 occurs in `memo1` or `memo2`, an absent memo read as empty |
| Feed.DestinationOfMark | script.js:67-70 | the mark of a matched token never selects the empty-key entry 上野; it falls back to 不明 exactly when the mark is not one of `a`–`j` |
| Feed.JunkTokensIgnored | script.js:66-67 | tokens failing `/^\w\d{2}$/` contribute nothing wherever they stand among the others |
| Feed.ParseTrainTimes | script.js:61-77 | `parseTrainTimes`: every train has a minute under 100 and is never sent to the empty-key destination; the round-trip lemmas below fix its contents and order |
| Feed.ParseTrainSetRoundTrip | script.js:63-75 | a number set written as dot-separated mark-and-two-digit tokens parses back to one train per token, in order, with the two digits as minute and the mark's destination |
| Feed.ParseTrainTimesRoundTrip | sites/script.js:41-57 | a block's trains are those of `num1` followed by those of `num2`, each set in its own order |
| Search.EarliestFromSpec | script.js:109-115 | the keep-if-strictly-earlier scan ends with nothing exactly when no time reaches the bound, else with the first earliest time at or after it |
| Search.FirstEarliestIsScan | script.js:109-115 | whatever index meets the first-earliest reference definition is the one the scan returns |
| Widget.TokenBusesOffer | script.js:98-106 | a row's tokens yield exactly the buses some token stands for; on an on-demand row every token yields one |
| Widget.RowBusesOffered | script.js:89-113 | a row's candidates follow the raw-row rules: an on-demand row with at least one token (an absent or empty `num1` has none) gives its hour at the arrival's minute, flagged, whatever its tokens say, and one with no token gives nothing; another row gives an unflagged bus per digit token |
| Widget.BusCandidatesOffered | script.js:88-120 | the candidates are exactly the buses some row with a digit hour and a `bus_right` block offers |
| Widget.FindNextBus | script.js:85-123 | `findNextBus`: a bus found is at or after the bound; NextBusSpec and NextBusIsFirstEarliest give its full specification |
| Widget.NextBusSpec | script.js:85-123 | findNextBus finds nothing exactly when no candidate is at or after the bound; otherwise it finds a candidate at or after the bound that no such candidate precedes |
| Widget.NextBusIsFirstEarliest | script.js:109-115 | of equally early candidates the first one seen is returned (strict `<`) |
| Widget.OnDemandSameHour | script.js:100-109 | an on-demand bus in the arrival's own hour is never after the arrival, and reaches it only when the arrival falls on a whole minute |
| Widget.CollectTrainTimes | script.js:281-291 | the collected list holds exactly the trains some row with a `train_right` block lists, tagged with its raw hour, every minute under 100 |
| Widget.CollectTrainTimesAppend | script.js:281-291 | the collection keeps the schedule's row order: the trains of earlier rows come first |
| Widget.CollectTrainTimesRow | script.js:282-290 | one row contributes its parsed trains in order, those of `num1` before those of `num2`, tagged with its raw hour |
| Widget.TrainCandidatesDated | script.js:134-137 | the dated trains are exactly the listed ones whose hour `parseInt` reads as a number, at that hour on the bound's date |
| Widget.ListedTrainOfDigitRow | script.js:131-137 | a train listed on a row whose hour passes `/^\d+$/` is dated at that row's hour |
| Widget.FindNextTrain | script.js:131-148 | `findNextTrain`: a train found is at or after the bound; NextTrainSpec and NextTrainIsFirstEarliest give its full specification |
| Widget.NextTrainSpec | script.js:131-148 | findNextTrain finds nothing exactly when no dated train is at or after the bound (`>=`); otherwise the earliest such train |
| Widget.NextTrainIsFirstEarliest | script.js:137-143 | of equally early trains the first one listed is returned |
| Widget.ConnectSpec | script.js:216-254 | a caught bus keeps its tier, time and transfer instant; its wait is from the walking arrival; walking is advised exactly when that exceeds 20 minutes; the train is the earliest at or after the transfer, or none |
| Widget.MissedBusSpec | script.js:199-213 | after a missed bus the wait reported is that of the earliest candidate from one minute later, measured from the walking arrival, or none when there is no such candidate or that wait is negative; for a bus not before the arrival "none today" appears exactly when the search finds nothing |
| Widget.GenerateMessage | script.js:158-258 | `generateMessage`: "no bus today" exactly when findNextBus finds nothing from the walking arrival; DecisionTree, AdviseSpec, AdviseTrain and the Boarded and Missed lemmas state the rest |
| Widget.AdviseSpec | script.js:178-218 | on demand exactly for a flagged bus; otherwise leeway at slack ≥ 3 min, depart soon at 1 ≤ slack < 3, hurry at slack < 1 with running slack ≥ 0.5, else missed, every bound inclusive; transfer is bus + 10 min, or now + walk + 13 min on demand |
| Widget.AdviseTrain | script.js:223-254 | a boarding advice names the earliest train at or after its transfer instant, or none; the wait is from that instant; the advisory holds exactly when the bus wait exceeds 20 minutes, on demand too |
| Widget.BoardedAfterArrival | script.js:178-218 | boarding a bus not before the walking arrival names that very bus, with a wait that is not negative |
| Widget.NoBusTodayExactly | script.js:168-173 | "no bus today" exactly when no candidate is at or after the walking arrival |
| Widget.BoardedBus | script.js:168-218 | a boarded bus is a candidate with a non-negative wait from the walking arrival, and the train search starts where the source says |
| Widget.BoardedTrain | script.js:223-254 | the train and walking advisory of a full message, as AdviseTrain states them |
| Widget.DecisionTree | script.js:168-218 | the message is the decision tree applied to the first earliest candidate at or after the walking arrival |
| Widget.MissedAfterArrival | script.js:199-213 | a missed bus not before the arrival gives a follow-up wait of at least a minute, missing exactly when no candidate remains a minute later |
| Widget.MissedBusNoLater | script.js:199-211 | in a full message "none today" after a missed bus appears exactly when no candidate remains from a minute after it; the negative-wait branch is never what produces it |
| Widget.MissedBusLaterWait | script.js:201-205 | in a full message the follow-up wait after a missed bus is at least one minute |
| Widget.MissedAdviceWait | script.js:199-205 | a missed bus not before the arrival reports the wait of the earliest candidate from one minute after it, measured from the walking arrival |
| Widget.MissedIsEarliest | script.js:168-199 | a missed bus is the earliest candidate at or after the walking arrival, and a scheduled, not an on-demand, one |
| Widget.MissedFollowUp | script.js:199-212 | in a full message the follow-up wait after a missed bus is that of the earliest candidate from one minute after it, measured from the walking arrival; no other wait is reported |
| Widget.MissedNeedsSlowRun | script.js:182-199 | a missed bus is reported only from a location where running saves under half a minute over walking, because the bus found is never before the walking arrival |
| Widget.NoBuildingMisses | script.js:6-15 | from every building of the table the message is never a missed bus |
| Widget.Recommend | script.js:276-301 | the collection loop followed by generateMessage: "no bus today" exactly when no bus line offers a candidate at or after the walking arrival; RecommendBus restates this over the raw rows |
| Widget.RecommendBus | script.js:276-301 | over the raw feed: "no bus today" exactly when no row offers a bus at or after the walking arrival, and a boarded bus is one some row offers |
| Sorting.SortByTimeSpec | sites/script.js:112-113 | the sort orders by time and is a permutation of its input |
| Sorting.SortByTimeStable | sites/script.js:112-113 | the elements at each instant come out in the order they went in |
| SitesWidget.GetNextTimes | sites/script.js:59-116 | `getNextTimes`: each list is as long as what the row loop pushed; NextBuses and NextTrains give the sort order, contents and stability |
| SitesWidget.ReadTokenLists | sites/script.js:80-94 | a token gives a bus exactly when it is a digit token, or any token on an on-demand row (then now's minute), and the bus has not left; the bus carries its time left and the row's flag |
| SitesWidget.RowBusesListed | sites/script.js:72-97 | a current row's buses are exactly those its tokens list, digit tokens keeping their minute even on an on-demand row |
| SitesWidget.BusesListed | sites/script.js:63-98 | the row loop pushes exactly the buses some row with a digit hour not before now's hour lists |
| SitesWidget.TrainsListed | sites/script.js:63-108 | the row loop pushes exactly the not-yet-departed trains of rows that pass the same hour filter, at that row's hour |
| SitesWidget.NextBuses | sites/script.js:59-116 | the bus list is sorted by time, a permutation of the pushed buses, holding exactly the buses some current row lists, row order kept at equal times |
| SitesWidget.NextTrains | sites/script.js:59-116 | the same for the train list |
| SitesWidget.ListedNotLeft | sites/script.js:89-105 | every listed bus and train is at or after now, and a bus's time left is its time minus now, not negative |
| SitesWidget.OnDemandThisHour | sites/script.js:84-92 | a non-digit on-demand token of the current hour stands for now truncated to the minute, so it is listed only when now is on a whole minute |
| SitesWidget.FindNextTrain | sites/script.js:118-125 | `findNextTrain`: a train found is one of the listed trains and strictly after the arrival |
| SitesWidget.NextTrainSpec | sites/script.js:118-125 | findNextTrain finds nothing exactly when no listed train is strictly after the arrival, else the first listed train strictly after it |
| SitesWidget.SortedNextTrainEarliest | sites/script.js:118-125 | on a sorted list that first train is also the earliest strictly after the arrival |
| SitesWidget.GenerateMessage | sites/script.js:127-190 | `generateMessage`: "no bus today" exactly when the bus list is empty; MessageTiers, MessageBoard and MessageMissed state the rest |
| SitesWidget.MessageTiers | sites/script.js:138-157 | on demand exactly for a flagged head bus; otherwise the tiers on its time left minus walk (≥ 3, ≥ 1 min) and minus run (≥ 0.5 min), every bound inclusive, else missed |
| SitesWidget.MessageBoard | sites/script.js:138-187 | a boarded bus is the head of the list; its wait is its time left from now; walking advised exactly when that exceeds 20 minutes; transfer is bus + 10 min or clock + walk + 13 min; the train is the first listed strictly after it, or none, its wait measured from the transfer |
| SitesWidget.MessageMissed | sites/script.js:151-157 | a missed head bus reports the second bus's time left minus the walk when there is one, else "none today"; no train is looked up |
| SitesWidget.MissedWaitCanBeNegative | sites/script.js:151-154 | from 4号館, a 5-minute walk, with buses 2 and 3 minutes away, the reported follow-up wait is minus two minutes |
| SitesWidget.Recommend | sites/script.js:199-210 | getNextTimes at now followed by generateMessage: "no bus today" exactly when the row loop pushes no bus |
| SitesWidget.RecommendBus | sites/script.js:199-210 | over the raw feed: "no bus today" exactly when no current row lists a bus that has not left, and a boarded bus is the earliest such bus |
| Versions.TrainAtTransfer | script.js:137 | a train exactly at the transfer instant is found by the `>=` search of script.js, but the `>` search of sites/script.js never returns one at that instant |
| Versions.SitesFoundIsLater | sites/script.js:120 | the sites search only ever returns a train strictly after its instant |
| Versions.OnDemandDigitToken | script.js:100-106 | on an on-demand row script.js takes the arrival's minute whatever a digit token says, while sites/script.js keeps the token's minute and only flags the bus |
| Versions.WaitBaselines | sites/script.js:182-187 | for one bus the sites wait (from now) is the script.js wait (from the walking arrival) plus the walk, so the sites advisory comes on for waits a walk shorter |

## Left out

- Network I/O is not modelled: `fetchBusData`, the CORS proxy in script.js, and `response.json()`. The feed is taken as already decoded rows. A field missing from the JSON is `None`. Non-string values in string fields are not modelled.
- The unguarded `data['timesheet'][0]['list']` access (script.js:277, sites/script.js:200) is not modelled. The source defines no error path for a malformed feed, so the model starts from the list.
- UI and timer plumbing are not modelled: DOM building, the loader spinner, the `setTimeout` animation, `setInterval` polling, event listeners, and `console.log`.
- Location selection is not modelled: `script.js` shows the selected building, and `sites/script.js` shows every building when none is selected. Each recommendation is for one `Location`.
- Message text is not modelled. This covers strings, HTML markup, `toFixed(1)`, `padStart` and `toLocaleTimeString`. The advice is structured data: a tier, the instants, and waits in milliseconds. The truncated hours-and-minutes split is kept.
- Calendar, time zone and daylight-saving behaviour of `Date` are not modelled. An instant is milliseconds from the local midnight of now's day, and the roll-over of `new Date` past 23 h or 59 min is kept.
- SitesWidget.Recommend reads `Date.now()` in `generateMessage` as the same instant as `currentTime`. SitesWidget.GenerateMessage takes that instant as a separate parameter, `clock`.
- Strings are sequences of Unicode code points. JavaScript strings are UTF-16 units, and the two agree on every character the feed uses. `\w` and `\d` are the ASCII classes, as in JavaScript.
- The large-number behaviour of JavaScript doubles is not modelled: hours or minutes too large to be exact, and `parseInt` beyond 2^53. Integers are unbounded.
- The bus block is read once per row (`Feed.BusLine`), and the `script.js` train hour is parsed once per listed train (`Widget.ListedTrain`). The source re-reads them on every use. Both readings are pure, so the results are the same.
- Feed.ParseTrainSetRoundTrip and Feed.ParseTrainTimesRoundTrip: these need at least one train per set, because joining no tokens has no dot-free encoding. An absent or empty set parses to no trains, by the definition of `ParseTrainSet`.

=== FILE: clock.dfy ===
/** Wall-clock time as integer milliseconds. An instant is counted from the
    local midnight of the day on which "now" falls, so an instant of the next
    day is at least DayMs and one of the previous day is negative. Every
    duration in the model is a whole number of milliseconds, which makes the
    source's divisions by 60000 exact comparisons on integers. */
module Clock {

  const MinuteMs: nat := 60000
  const HalfMinuteMs: nat := 30000
  const HourMs: nat := 3600000
  const DayMs: nat := 86400000

  /** The local midnight that starts the day holding instant t. */
  function Midnight(t: int): (m: int)
    ensures m <= t < m + DayMs
    ensures m % DayMs == 0
  {
    t - t % DayMs
  }

  /** `Date.prototype.getMinutes`. */
  function MinuteOf(t: int): (m: nat)
    ensures m < 60
  {
    (t / MinuteMs) % 60
  }

  /** `Date.prototype.getHours`. */
  function HourOf(t: int): (h: nat)
    ensures h < 24
  {
    (t / HourMs) % 24
  }

  /** `new Date(y, mo, d, hour, minute)` where y, mo, d are the date of base.
      As in JavaScript, an hour past 23 or a minute past 59 rolls over into
      the following hours and days instead of being rejected. */
  function At(base: int, hour: int, minute: int): int {
    Midnight(base) + hour * HourMs + minute * MinuteMs
  }

  /** Rebuilding an instant from its own date, hour and minute gives the
      instant truncated to its minute: never later, less than a minute
      earlier, and equal exactly when the instant has no seconds part. */
  lemma AtOwnClock(t: int)
    ensures At(t, HourOf(t), MinuteOf(t)) == t - t % MinuteMs
    ensures At(t, HourOf(t), MinuteOf(t)) <= t < At(t, HourOf(t), MinuteOf(t)) + MinuteMs
  {
    var r := t % DayMs;
    var q := t / DayMs;
    assert t == q * DayMs + r && 0 <= r < DayMs;
    assert t / HourMs == q * 24 + r / HourMs by {
      assert t == (q * 24 + r / HourMs) * HourMs + r % HourMs;
    }
    assert HourOf(t) == r / HourMs;
    var s := r % HourMs;
    assert t / MinuteMs == (q * 24 + r / HourMs) * 60 + s / MinuteMs by {
      assert t == ((q * 24 + r / HourMs) * 60 + s / MinuteMs) * MinuteMs + s % MinuteMs;
    }
    assert MinuteOf(t) == s / MinuteMs;
    assert t % MinuteMs == s % MinuteMs by {
      assert t == ((q * 24 + r / HourMs) * 60 + s / MinuteMs) * MinuteMs + s % MinuteMs;
    }
  }
}

=== FILE: feed.dfy ===
/** The timetable feed: the raw rows of `timesheet[0].list` as the JSON
    decoder hands them over, and the field readings both versions share
    (the hour test, the bus token list, the on-demand memo flag, and the
    train token parser, which is the same in script.js and
    sites/script.js). */
module Feed {
  import opened Wrappers
  import opened Text

  /** The `bus_right` object of a row; an absent field is None. */
  datatype BusRight = BusRight(num1: Option<string>, memo1: Option<string>, memo2: Option<string>)

  /** The `train_right` object of a row. */
  datatype TrainRight = TrainRight(num1: Option<string>, num2: Option<string>)

  /** One entry of the feed's list: the hour field and the two optional blocks. */
  datatype RawRow = RawRow(time: Option<string>, busRight: Option<BusRight>, trainRight: Option<TrainRight>)

  /** The row's hour field is present and passes `/^\d+$/`. */
  predicate HasDigitHour(row: RawRow) {
    row.time.Some? && IsDigits(row.time.value)
  }

  function RowHour(row: RawRow): nat
    requires HasDigitHour(row)
  {
    DigitsValue(row.time.value)
  }

  /** The memo phrase that marks an hour of on-demand service. */
  const OnDemandMarker: string := "適時運行"

  /** Either memo, read as the empty string when absent, holds the marker. */
  predicate IsOnDemand(b: BusRight) {
    Contains(b.memo1.GetOr(""), OnDemandMarker) || Contains(b.memo2.GetOr(""), OnDemandMarker)
  }

  /** The flag is set exactly when the marker occurs in one of the memos. */
  lemma IsOnDemandOccurs(b: BusRight)
    ensures IsOnDemand(b) <==>
              (exists i :: OccursAt(b.memo1.GetOr(""), OnDemandMarker, i))
              || (exists i :: OccursAt(b.memo2.GetOr(""), OnDemandMarker, i))
  {
    ContainsOccurs(b.memo1.GetOr(""), OnDemandMarker);
    ContainsOccurs(b.memo2.GetOr(""), OnDemandMarker);
  }

  /** The bus minute tokens of a row: `num1` split on dots, or none when
      `num1` is absent or empty. */
  function BusTokens(b: BusRight): seq<string> {
    if b.num1.Some? && |b.num1.value| > 0 then Split(b.num1.value) else []
  }

  /** A bus minute token as both versions test it: its value when it passes
      `/^\d+$/`, None otherwise. */
  function ReadToken(t: string): (r: Option<nat>)
    ensures r.Some? <==> IsDigits(t)
  {
    if IsDigits(t) then Some(DigitsValue(t)) else None
  }

  function ReadTokens(tokens: seq<string>): (r: seq<Option<nat>>)
    ensures |r| == |tokens|
    ensures forall i :: 0 <= i < |tokens| ==> r[i] == ReadToken(tokens[i])
    decreases |tokens|
  {
    if |tokens| == 0 then [] else [ReadToken(tokens[0])] + ReadTokens(tokens[1..])
  }

  /** The bus block of a row with a valid hour, read once: the hour, the
      on-demand flag and the tokens read. The scripts re-read the strings on
      every search; reading is pure, so reading once gives the same values. */
  datatype BusLine = BusLine(hour: nat, onDemand: bool, tokens: seq<Option<nat>>)

  function BusLineOf(hour: nat, b: BusRight): BusLine {
    BusLine(hour, IsOnDemand(b), ReadTokens(BusTokens(b)))
  }

  // ---------------------------------------------------------------------------
  // Train destinations
  // ---------------------------------------------------------------------------

  /** The termini of the code table, and the fallback for an unlisted code. */
  datatype Destination =
    | Ueno | Zushi | Ofuna | Omiya | Atami | Odawara | Numazu | Hiratsuka
    | Kozu | Ito | Shinagawa | Unknown

  const DestinationSettings: map<string, Destination> := map[
    "" := Ueno, "a" := Zushi, "b" := Ofuna, "c" := Omiya, "d" := Atami,
    "e" := Odawara, "f" := Numazu, "g" := Hiratsuka, "h" := Kozu,
    "i" := Ito, "j" := Shinagawa
  ]

  /** The table lookup with the fallback for a missing key. */
  function DestinationOf(mark: string): Destination {
    if mark in DestinationSettings then DestinationSettings[mark] else Unknown
  }

  /** A one-character mark never reaches the table's empty-key entry, so a
      parsed train never goes to Ueno; the ten letters a to j are the only
      marks with a known destination. */
  lemma DestinationOfMark(c: char)
    ensures DestinationOf([c]) != Ueno
    ensures DestinationOf([c]) == Unknown <==> !('a' <= c <= 'j')
  {
    assert [c] != "";
  }

  // ---------------------------------------------------------------------------
  // parseTrainTimes
  // ---------------------------------------------------------------------------

  /** One parsed train: its minute within the row's hour and its terminus. */
  datatype TrainStop = TrainStop(minute: nat, destination: Destination)

  /** `/^\w\d{2}$/`: a word character followed by exactly two digits. */
  predicate IsTrainToken(t: string) {
    |t| == 3 && IsWordChar(t[0]) && IsDigit(t[1]) && IsDigit(t[2])
  }

  function DecodeTrainToken(t: string): TrainStop
    requires IsTrainToken(t)
  {
    TrainStop(DigitsValue(t[1..3]), DestinationOf(t[..1]))
  }

  /** What one token contributes: its decoding when it matches, else nothing. */
  function TokenStops(t: string): (r: seq<TrainStop>)
    ensures |r| <= 1
    ensures forall i :: 0 <= i < |r| ==> r[i].minute < 100 && r[i].destination != Ueno
  {
    if IsTrainToken(t) then
      TwoDigits(t[1], t[2]);
      assert t[1..3] == [t[1], t[2]];
      assert t[..1] == [t[0]];
      DestinationOfMark(t[0]);
      [DecodeTrainToken(t)]
    else []
  }

  /** The tokens that match, decoded, in their order; others are dropped. */
  function DecodeTokens(tokens: seq<string>): (r: seq<TrainStop>)
    ensures |r| <= |tokens|
    ensures forall i :: 0 <= i < |r| ==> r[i].minute < 100 && r[i].destination != Ueno
    decreases |tokens|
  {
    if |tokens| == 0 then [] else TokenStops(tokens[0]) + DecodeTokens(tokens[1..])
  }

  /** One of the two number sets of `train_right`; absent or empty means none. */
  function ParseTrainSet(field: Option<string>): seq<TrainStop> {
    if field.Some? && |field.value| > 0 then DecodeTokens(Split(field.value)) else []
  }

  /** `parseTrainTimes(entry, 'train_right')`: the trains of `num1`, then
      those of `num2`. */
  function ParseTrainTimes(block: Option<TrainRight>): (r: seq<TrainStop>)
    ensures forall i :: 0 <= i < |r| ==> r[i].minute < 100 && r[i].destination != Ueno
  {
    if block.None? then []
    else ParseTrainSet(block.value.num1) + ParseTrainSet(block.value.num2)
  }

  lemma {:induction false} DecodeTokensAppend(a: seq<string>, b: seq<string>)
    ensures DecodeTokens(a + b) == DecodeTokens(a) + DecodeTokens(b)
    decreases |a|
  {
    if |a| == 0 {
      assert a + b == b;
    } else {
      var ab := a + b;
      assert ab[0] == a[0];
      assert ab[1..] == a[1..] + b;
      DecodeTokensAppend(a[1..], b);
      calc {
        DecodeTokens(ab);
        TokenStops(a[0]) + DecodeTokens(a[1..] + b);
        TokenStops(a[0]) + (DecodeTokens(a[1..]) + DecodeTokens(b));
        (TokenStops(a[0]) + DecodeTokens(a[1..])) + DecodeTokens(b);
      }
    }
  }

  /** Tokens that do not match contribute nothing wherever they stand. */
  lemma JunkTokensIgnored(before: seq<string>, junk: seq<string>, after: seq<string>)
    requires forall i :: 0 <= i < |junk| ==> !IsTrainToken(junk[i])
    ensures DecodeTokens(before + junk + after) == DecodeTokens(before + after)
  {
    var dBefore := DecodeTokens(before);
    var dAfter := DecodeTokens(after);
    DecodeTokensAppend(before + junk, after);
    DecodeTokensAppend(before, junk);
    DecodeTokensAppend(before, after);
    JunkDecodesToNothing(junk);
    calc {
      DecodeTokens(before + junk + after);
      DecodeTokens(before + junk) + dAfter;
      (dBefore + DecodeTokens(junk)) + dAfter;
      { assert dBefore + [] == dBefore; }
      dBefore + dAfter;
    }
  }

  lemma {:induction false} JunkDecodesToNothing(junk: seq<string>)
    requires forall i :: 0 <= i < |junk| ==> !IsTrainToken(junk[i])
    ensures DecodeTokens(junk) == []
    decreases |junk|
  {
    if |junk| > 0 {
      JunkDecodesToNothing(junk[1..]);
    }
  }

  // ---------------------------------------------------------------------------
  // The inverse: writing trains as feed tokens
  // ---------------------------------------------------------------------------

  /** A train as the feed encodes it: a mark character and a minute. */
  datatype TrainCode = TrainCode(mark: char, minute: nat)

  predicate ValidCode(c: TrainCode) {
    IsWordChar(c.mark) && c.minute < 100
  }

  /** The three-character token of a train: its mark and two minute digits. */
  function Encode(c: TrainCode): (t: string)
    requires ValidCode(c)
    ensures IsTrainToken(t) && DotFree(t)
  {
    [c.mark, DigitChar(c.minute / 10), DigitChar(c.minute % 10)]
  }

  function EncodeAll(cs: seq<TrainCode>): (ts: seq<string>)
    requires forall i :: 0 <= i < |cs| ==> ValidCode(cs[i])
    ensures |ts| == |cs|
    ensures forall i :: 0 <= i < |ts| ==> ts[i] == Encode(cs[i])
    ensures forall i :: 0 <= i < |ts| ==> DotFree(ts[i])
    decreases |cs|
  {
    if |cs| == 0 then [] else [Encode(cs[0])] + EncodeAll(cs[1..])
  }

  /** What a list of codes means: each minute with its mark's destination. */
  function Meaning(cs: seq<TrainCode>): (r: seq<TrainStop>)
    ensures |r| == |cs|
    ensures forall i :: 0 <= i < |r| ==> r[i] == TrainStop(cs[i].minute, DestinationOf([cs[i].mark]))
    decreases |cs|
  {
    if |cs| == 0 then [] else [TrainStop(cs[0].minute, DestinationOf([cs[0].mark]))] + Meaning(cs[1..])
  }

  lemma DecodeEncode(c: TrainCode)
    requires ValidCode(c)
    ensures DecodeTrainToken(Encode(c)) == TrainStop(c.minute, DestinationOf([c.mark]))
  {
    var t := Encode(c);
    TwoDigits(t[1], t[2]);
    assert t[1..3] == [t[1], t[2]];
    assert t[..1] == [c.mark];
  }

  lemma {:induction false} DecodeTokensEncoded(cs: seq<TrainCode>)
    requires forall i :: 0 <= i < |cs| ==> ValidCode(cs[i])
    ensures DecodeTokens(EncodeAll(cs)) == Meaning(cs)
    decreases |cs|
  {
    if |cs| > 0 {
      var ts := EncodeAll(cs);
      DecodeEncode(cs[0]);
      assert ts[1..] == EncodeAll(cs[1..]);
      DecodeTokensEncoded(cs[1..]);
      assert TokenStops(ts[0]) == [TrainStop(cs[0].minute, DestinationOf([cs[0].mark]))];
    }
  }

  /** Round trip: a number set written from valid codes, dot-separated,
      parses back to exactly those trains in that order. */
  lemma ParseTrainSetRoundTrip(cs: seq<TrainCode>)
    requires |cs| >= 1
    requires forall i :: 0 <= i < |cs| ==> ValidCode(cs[i])
    ensures ParseTrainSet(Some(Join(EncodeAll(cs)))) == Meaning(cs)
  {
    var ts := EncodeAll(cs);
    JoinedCodesNonEmpty(cs);
    ParseTrainSetOfLine(Join(ts));
    SplitJoin(ts);
    DecodeTokensEncoded(cs);
  }

  lemma JoinedCodesNonEmpty(cs: seq<TrainCode>)
    requires |cs| >= 1
    requires forall i :: 0 <= i < |cs| ==> ValidCode(cs[i])
    ensures |Join(EncodeAll(cs))| >= 3
  {
  }

  lemma ParseTrainSetOfLine(line: string)
    requires |line| > 0
    ensures ParseTrainSet(Some(line)) == DecodeTokens(Split(line))
  {
  }

  /** Round trip for a whole block: the trains of `num1` come before those
      of `num2`, each set in its own order. */
  lemma ParseTrainTimesRoundTrip(first: seq<TrainCode>, second: seq<TrainCode>)
    requires |first| >= 1 && |second| >= 1
    requires forall i :: 0 <= i < |first| ==> ValidCode(first[i])
    requires forall i :: 0 <= i < |second| ==> ValidCode(second[i])
    ensures ParseTrainTimes(Some(TrainRight(Some(Join(EncodeAll(first))), Some(Join(EncodeAll(second))))))
            == Meaning(first) + Meaning(second)
  {
    ParseTrainSetRoundTrip(first);
    ParseTrainSetRoundTrip(second);
  }
}

=== FILE: recommendation.dfy ===
/** What both versions compute for a location: the walking and running
    durations of each building, the urgency tiers with their thresholds, and
    the structured advice that the page turns into a message. */
module Recommendation {
  import opened Wrappers
  import opened Clock
  import opened Feed

  /** A building's walking and running time to the bus stop, in ms. */
  datatype Location = Location(walk: nat, run: nat)

  /** The buildings of the campus; every duration is a whole number of
      half minutes. */
  const Locations: map<string, Location> := map[
    "生協" := Location(2 * MinuteMs, 1 * MinuteMs),
    "記念館" := Location(3 * MinuteMs, 2 * MinuteMs),
    "2号館" := Location(7 * HalfMinuteMs, 5 * HalfMinuteMs),
    "3号館" := Location(7 * HalfMinuteMs, 5 * HalfMinuteMs),
    "4号館" := Location(5 * MinuteMs, 3 * MinuteMs),
    "5号館" := Location(5 * MinuteMs, 3 * MinuteMs),
    "6号館" := Location(11 * HalfMinuteMs, 7 * HalfMinuteMs),
    "図書館" := Location(11 * HalfMinuteMs, 7 * HalfMinuteMs)
  ]

  /** Running saves at least a minute over walking from every building,
      and both are whole half minutes. */
  lemma LocationsWellFormed()
    ensures forall name :: name in Locations ==>
              && Locations[name].run + MinuteMs <= Locations[name].walk
              && Locations[name].walk % HalfMinuteMs == 0
              && Locations[name].run % HalfMinuteMs == 0
  {
  }

  /** Slack at or above which the user can walk at leisure. */
  const LeewayMs: nat := 3 * MinuteMs
  /** Slack at or above which leaving now on foot is enough. */
  const DepartSoonMs: nat := MinuteMs
  /** Running slack at or above which hurrying still catches the bus. */
  const HurryMs: nat := HalfMinuteMs
  /** Time from boarding a scheduled bus to being ready for a train. */
  const BusTransferMs: nat := 10 * MinuteMs
  /** Time from leaving the building to being ready for a train when the
      bus runs on demand. */
  const OnDemandRideMs: nat := 13 * MinuteMs
  /** A bus wait above this gets the advice to walk instead. */
  const WalkAdvisoryMs: nat := 20 * MinuteMs

  /** The urgency of the message shown with a reachable bus. */
  datatype Tier = OnDemand | Leeway | DepartSoon | Hurry

  /** A train wait as shown: minutes below an hour, else whole hours and
      whole minutes (truncated, not rounded). */
  datatype TrainWait = Minutes(ms: int) | HoursMinutes(hours: nat, minutes: nat)

  /** The wait split the way both versions display it: floor(w / 60) hours
      and floor(w % 60) minutes for a wait w of 60 minutes or more. */
  function TrainWaitOf(ms: int): (w: TrainWait)
    ensures w.Minutes? <==> ms < HourMs
    ensures w.Minutes? ==> w.ms == ms
    ensures w.HoursMinutes? ==>
              && w.hours >= 1 && w.minutes < 60
              && w.hours * HourMs + w.minutes * MinuteMs <= ms
              && ms < w.hours * HourMs + (w.minutes + 1) * MinuteMs
  {
    if ms >= HourMs then HoursMinutes(ms / HourMs, (ms % HourMs) / MinuteMs)
    else Minutes(ms)
  }

  /** A train found for the transfer instant. */
  datatype Train = Train(time: int, destination: Destination)

  /** The departure instants of a train list, position by position. */
  function TrainTimes(cs: seq<Train>): (r: seq<int>)
    ensures |r| == |cs|
  {
    if |cs| == 0 then [] else [cs[0].time] + TrainTimes(cs[1..])
  }

  lemma {:induction false} TrainTimesAt(cs: seq<Train>)
    ensures forall i :: 0 <= i < |cs| ==> TrainTimes(cs)[i] == cs[i].time
  {
    if |cs| > 0 {
      TrainTimesAt(cs[1..]);
    }
  }

  /** The train part of the message: when, where to, and how long to wait. */
  datatype TrainLeg = TrainLeg(time: int, destination: Destination, wait: TrainWait)

  /** The train leg of a found train, its wait measured from transfer. */
  function LegOf(train: Option<Train>, transfer: int): (leg: Option<TrainLeg>)
    ensures leg.None? <==> train.None?
    ensures leg.Some? ==>
              && leg.value.time == train.value.time
              && leg.value.destination == train.value.destination
              && leg.value.wait == TrainWaitOf(train.value.time - transfer)
  {
    match train
    case None => None
    case Some(t) => Some(TrainLeg(t.time, t.destination, TrainWaitOf(t.time - transfer)))
  }

  /** The outcome of one recommendation.
      - NoBusToday: no bus is left today.
      - TakeLaterBus: the next bus (at missed) cannot be caught; laterWait
        is the wait the message reports for the following bus, or None for
        the message that no further bus runs today. No train is looked up.
      - Board: the bus at busTime can be caught with the given urgency;
        busWait is the bus wait the message reports for a scheduled bus (for
        an on-demand bus no wait is printed, and busWait only decides the
        walking advisory), transfer the instant
        from which the connecting train is searched, train that train if
        any, and preferWalk whether the walking advisory is appended. */
  datatype Advice =
    | NoBusToday
    | TakeLaterBus(missed: int, laterWait: Option<int>)
    | Board(tier: Tier, busTime: int, busWait: int, transfer: int,
            train: Option<TrainLeg>, preferWalk: bool)
}

=== FILE: search.dfy ===
/** The "first earliest at or after a bound" scan that script.js runs for both
    buses and trains: a left-to-right pass that keeps the best candidate seen
    so far and replaces it only on a strictly earlier time. */
module Search {
  import opened Wrappers

  /** Among the first n times, time k is at or after bound, no time at or
      after bound is earlier, and every earlier-listed time at or after bound
      is strictly later (the first one seen wins a tie). */
  ghost predicate IsFirstEarliestIn(times: seq<int>, bound: int, n: int, k: int) {
    && 0 <= k < n <= |times|
    && times[k] >= bound
    && (forall j :: 0 <= j < n && times[j] >= bound ==> times[k] <= times[j])
    && (forall j :: 0 <= j < k && times[j] >= bound ==> times[k] < times[j])
  }

  ghost predicate IsFirstEarliest(times: seq<int>, bound: int, k: int) {
    IsFirstEarliestIn(times, bound, |times|, k)
  }

  /** The scan from position i on, with best the index kept so far: a
      time at or after bound replaces best only when it is strictly
      earlier. */
  function EarliestFrom(times: seq<int>, bound: int, i: nat, best: Option<nat>): (r: Option<nat>)
    requires i <= |times|
    requires best.Some? ==> best.value < i && times[best.value] >= bound
    ensures r.Some? ==> r.value < |times| && times[r.value] >= bound
    decreases |times| - i
  {
    if i == |times| then best
    else
      var next :=
        if times[i] >= bound && (best.None? || times[i] < times[best.value]) then Some(i)
        else best;
      EarliestFrom(times, bound, i + 1, next)
  }

  /** Given that best is the first earliest among the first i times, or
      None when none of them is at or after bound, the scan ends with the
      first earliest of all the times, or None when none is. */
  lemma {:induction false} EarliestFromSpec(times: seq<int>, bound: int, i: nat, best: Option<nat>)
    requires i <= |times|
    requires best.None? ==> forall j :: 0 <= j < i ==> times[j] < bound
    requires best.Some? ==> IsFirstEarliestIn(times, bound, i, best.value)
    ensures EarliestFrom(times, bound, i, best).None? <==> forall j :: 0 <= j < |times| ==> times[j] < bound
    ensures EarliestFrom(times, bound, i, best).Some? ==>
              IsFirstEarliest(times, bound, EarliestFrom(times, bound, i, best).value)
    decreases |times| - i
  {
    if i < |times| {
      var next :=
        if times[i] >= bound && (best.None? || times[i] < times[best.value]) then Some(i)
        else best;
      EarliestFromSpec(times, bound, i + 1, next);
    }
  }

  /** The index of the first earliest time at or after bound, or None when
      every time is before it. */
  function FirstEarliest(times: seq<int>, bound: int): (r: Option<nat>)
    ensures r.Some? ==> r.value < |times| && times[r.value] >= bound
  {
    EarliestFrom(times, bound, 0, None)
  }

  /** The scan finds nothing exactly when every time is before bound, and
      otherwise the first earliest time at or after it. */
  lemma FirstEarliestSpec(times: seq<int>, bound: int)
    ensures FirstEarliest(times, bound).None? <==> forall j :: 0 <= j < |times| ==> times[j] < bound
    ensures FirstEarliest(times, bound).Some? ==> IsFirstEarliest(times, bound, FirstEarliest(times, bound).value)
  {
    EarliestFromSpec(times, bound, 0, None);
  }

  /** At most one index is the first earliest one. */
  lemma FirstEarliestUnique(times: seq<int>, bound: int, k1: int, k2: int)
    requires IsFirstEarliest(times, bound, k1)
    requires IsFirstEarliest(times, bound, k2)
    ensures k1 == k2
  {
  }

  /** Whatever index satisfies the reference definition is the one the scan
      returns. */
  lemma FirstEarliestIsScan(times: seq<int>, bound: int, k: int)
    requires IsFirstEarliest(times, bound, k)
    ensures FirstEarliest(times, bound) == Some(k)
  {
    var r := FirstEarliest(times, bound);
    FirstEarliestSpec(times, bound);
    assert times[k] >= bound;
    FirstEarliestUnique(times, bound, k, r.value);
  }
}

=== FILE: sites_widget.dfy ===
/** The engine of sites/script.js: getNextTimes reads only the rows of the
    current hour or later and keeps the buses and trains not yet departed,
    each list stably sorted by time; generateMessage then looks only at the
    head of the bus list, which may leave before the walking arrival. Its
    slack is the time left minus the walk, measured from the walking
    arrival as in script.js, while the wait shown and the walking advisory
    are measured from now. It takes the first listed train strictly after
    the transfer instant. */
module SitesWidget {
  import opened Wrappers
  import opened Text
  import opened Clock
  import opened Feed
  import opened Sorting
  import opened Recommendation

  // ---------------------------------------------------------------------------
  // getNextTimes
  // ---------------------------------------------------------------------------

  /** A row getNextTimes reads: its hour passes `/^\d+$/` and is not before
      the hour of now. */
  predicate IsCurrentRow(row: RawRow, now: int) {
    HasDigitHour(row) && RowHour(row) >= HourOf(now)
  }

  /** What a listed bus carries besides its instant: the time left until it
      from now (`minutes`, kept in ms) and its on-demand flag. */
  datatype BusInfo = BusInfo(untilMs: int, isTemporary: bool)

  type ListedBus = Timed<BusInfo>
  type ListedTrain = Timed<Destination>

  /** The minute a read bus token stands for: a digit token its value; any
      other token the minute of now, but only on an on-demand row. */
  function TokenMinute(token: Option<nat>, onDemand: bool, now: int): Option<nat> {
    if token.Some? then token
    else if onDemand then Some(MinuteOf(now))
    else None
  }

  /** The bus a token of a row with the given hour lists, unless it has
      already left. */
  function TokenBus(token: Option<nat>, hour: nat, onDemand: bool, now: int): Option<ListedBus> {
    match TokenMinute(token, onDemand, now)
    case None => None
    case Some(m) =>
      var time := At(now, hour, m);
      if time - now >= 0 then Some(Timed(time, BusInfo(time - now, onDemand))) else None
  }

  function TokenBuses(tokens: seq<Option<nat>>, hour: nat, onDemand: bool, now: int): seq<ListedBus>
    decreases |tokens|
  {
    if |tokens| == 0 then []
    else
      var head := match TokenBus(tokens[0], hour, onDemand, now)
        case None => []
        case Some(b) => [b];
      head + TokenBuses(tokens[1..], hour, onDemand, now)
  }

  /** Some token yields bus b. */
  ghost predicate TokensList(tokens: seq<Option<nat>>, hour: nat, onDemand: bool, now: int, b: ListedBus) {
    exists j :: 0 <= j < |tokens| && TokenBus(tokens[j], hour, onDemand, now) == Some(b)
  }

  lemma {:induction false} TokenBusesListed(tokens: seq<Option<nat>>, hour: nat, onDemand: bool, now: int)
    ensures forall b :: b in TokenBuses(tokens, hour, onDemand, now) <==> TokensList(tokens, hour, onDemand, now, b)
    decreases |tokens|
  {
    if |tokens| > 0 {
      TokenBusesListed(tokens[1..], hour, onDemand, now);
      assert forall j :: 0 <= j < |tokens[1..]| ==> tokens[1..][j] == tokens[j + 1];
      forall b | TokensList(tokens, hour, onDemand, now, b)
        ensures b in TokenBuses(tokens, hour, onDemand, now)
      {
        var j :| 0 <= j < |tokens| && TokenBus(tokens[j], hour, onDemand, now) == Some(b);
        if j > 0 {
          assert TokensList(tokens[1..], hour, onDemand, now, b) by {
            assert TokenBus(tokens[1..][j - 1], hour, onDemand, now) == Some(b);
          }
        }
      }
    }
  }

  /** The buses of the row loop, in the order they are pushed. */
  function BusesOf(schedule: seq<RawRow>, now: int): seq<ListedBus>
    decreases |schedule|
  {
    if |schedule| == 0 then []
    else
      var row := schedule[0];
      var here :=
        if IsCurrentRow(row, now) && row.busRight.Some? then
          var line := BusLineOf(RowHour(row), row.busRight.value);
          TokenBuses(line.tokens, line.hour, line.onDemand, now)
        else [];
      here + BusesOf(schedule[1..], now)
  }

  /** The trains of a row's parsed stops at the row's hour, unless they
      have already left. */
  function StopTrains(stops: seq<TrainStop>, hour: nat, now: int): seq<ListedTrain>
    decreases |stops|
  {
    if |stops| == 0 then []
    else
      var time := At(now, hour, stops[0].minute);
      var head := if time - now >= 0 then [Timed(time, stops[0].destination)] else [];
      head + StopTrains(stops[1..], hour, now)
  }

  lemma {:induction false} StopTrainsListed(stops: seq<TrainStop>, hour: nat, now: int)
    ensures forall t :: t in StopTrains(stops, hour, now) <==>
              t.time >= now && exists s :: s in stops && t == Timed(At(now, hour, s.minute), s.destination)
    decreases |stops|
  {
    if |stops| > 0 {
      StopTrainsListed(stops[1..], hour, now);
      assert forall s :: s in stops <==> s == stops[0] || s in stops[1..];
    }
  }

  /** The trains of the row loop, in the order they are pushed. */
  function TrainsOf(schedule: seq<RawRow>, now: int): seq<ListedTrain>
    decreases |schedule|
  {
    if |schedule| == 0 then []
    else
      var row := schedule[0];
      var here := if IsCurrentRow(row, now) then StopTrains(ParseTrainTimes(row.trainRight), RowHour(row), now) else [];
      here + TrainsOf(schedule[1..], now)
  }

  /** The two lists getNextTimes returns. */
  datatype NextTimes = NextTimes(buses: seq<ListedBus>, trains: seq<ListedTrain>)

  /** `getNextTimes(now, schedule)`: both lists, each sorted by time. */
  function GetNextTimes(now: int, schedule: seq<RawRow>): (r: NextTimes)
    ensures |r.buses| == |BusesOf(schedule, now)| && |r.trains| == |TrainsOf(schedule, now)|
  {
    NextTimes(SortByTime(BusesOf(schedule, now)), SortByTime(TrainsOf(schedule, now)))
  }

  /** Reference definition, for one raw token of a row with the given hour
      and flag: the token lists bus b when b has not left, carries its time
      left and the row's flag, and the token stands for b's minute: a digit
      token for its value, any other token, on an on-demand row only, for
      the minute of now. */
  ghost predicate TokenLists(t: string, hour: nat, onDemand: bool, now: int, b: ListedBus) {
    && b.time >= now
    && b.info == BusInfo(b.time - now, onDemand)
    && if IsDigits(t) then b.time == At(now, hour, DigitsValue(t))
       else onDemand && b.time == At(now, hour, MinuteOf(now))
  }

  /** Reference definition: a current row with a `bus_right` block lists
      the buses its tokens list. */
  ghost predicate RowListsBus(row: RawRow, now: int, b: ListedBus) {
    && IsCurrentRow(row, now) && row.busRight.Some?
    && var block := row.busRight.value;
       var tokens := BusTokens(block);
       exists j :: 0 <= j < |tokens| && TokenLists(tokens[j], RowHour(row), IsOnDemand(block), now, b)
  }

  ghost predicate IsUpcomingBus(schedule: seq<RawRow>, now: int, b: ListedBus) {
    exists i :: 0 <= i < |schedule| && RowListsBus(schedule[i], now, b)
  }

  /** Reference definition: a current row lists train t when t has not
      left and is one of the row's parsed trains at the row's hour. */
  ghost predicate RowRuns(row: RawRow, now: int, t: ListedTrain) {
    && IsCurrentRow(row, now)
    && t.time >= now
    && exists s :: s in ParseTrainTimes(row.trainRight) && t == Timed(At(now, RowHour(row), s.minute), s.destination)
  }

  ghost predicate IsUpcomingTrain(schedule: seq<RawRow>, now: int, t: ListedTrain) {
    exists i :: 0 <= i < |schedule| && RowRuns(schedule[i], now, t)
  }

  /** A token read once yields exactly the bus the reference definition
      lets it list. */
  lemma ReadTokenLists(t: string, hour: nat, onDemand: bool, now: int, b: ListedBus)
    ensures TokenBus(ReadToken(t), hour, onDemand, now) == Some(b) <==> TokenLists(t, hour, onDemand, now, b)
  {
  }

  /** A row's buses are exactly those the reference definition lets it
      list. */
  lemma RowBusesListed(row: RawRow, now: int, b: ListedBus)
    requires IsCurrentRow(row, now) && row.busRight.Some?
    ensures var line := BusLineOf(RowHour(row), row.busRight.value);
            b in TokenBuses(line.tokens, line.hour, line.onDemand, now) <==> RowListsBus(row, now, b)
  {
    var block := row.busRight.value;
    var tokens := BusTokens(block);
    var line := BusLineOf(RowHour(row), block);
    TokenBusesListed(line.tokens, line.hour, line.onDemand, now);
    if TokensList(line.tokens, line.hour, line.onDemand, now, b) {
      var j :| 0 <= j < |line.tokens| && TokenBus(line.tokens[j], line.hour, line.onDemand, now) == Some(b);
      assert line.tokens[j] == ReadToken(tokens[j]);
      ReadTokenLists(tokens[j], line.hour, line.onDemand, now, b);
    }
    if RowListsBus(row, now, b) {
      var j :| 0 <= j < |tokens| && TokenLists(tokens[j], RowHour(row), IsOnDemand(block), now, b);
      ReadTokenLists(tokens[j], line.hour, line.onDemand, now, b);
      assert TokenBus(line.tokens[j], line.hour, line.onDemand, now) == Some(b);
    }
  }

  /** The row loop pushes exactly the buses some row lists. */
  lemma {:induction false} BusesListed(schedule: seq<RawRow>, now: int)
    ensures forall b :: b in BusesOf(schedule, now) <==> IsUpcomingBus(schedule, now, b)
    decreases |schedule|
  {
    if |schedule| > 0 {
      var row := schedule[0];
      BusesListed(schedule[1..], now);
      var here: seq<ListedBus> := [];
      if IsCurrentRow(row, now) && row.busRight.Some? {
        var line := BusLineOf(RowHour(row), row.busRight.value);
        here := TokenBuses(line.tokens, line.hour, line.onDemand, now);
        forall b ensures b in here <==> RowListsBus(row, now, b) {
          RowBusesListed(row, now, b);
        }
      }
      assert BusesOf(schedule, now) == here + BusesOf(schedule[1..], now);
      forall b | IsUpcomingBus(schedule[1..], now, b)
        ensures IsUpcomingBus(schedule, now, b)
      {
        var i :| 0 <= i < |schedule[1..]| && RowListsBus(schedule[1..][i], now, b);
        assert RowListsBus(schedule[i + 1], now, b);
      }
      forall b | IsUpcomingBus(schedule, now, b)
        ensures RowListsBus(row, now, b) || IsUpcomingBus(schedule[1..], now, b)
      {
        var i :| 0 <= i < |schedule| && RowListsBus(schedule[i], now, b);
        if i > 0 {
          assert schedule[1..][i - 1] == schedule[i];
        }
      }
      forall b | RowListsBus(row, now, b)
        ensures IsUpcomingBus(schedule, now, b)
      {
      }
    }
  }

  /** The row loop pushes exactly the trains some row lists. */
  lemma {:induction false} TrainsListed(schedule: seq<RawRow>, now: int)
    ensures forall t :: t in TrainsOf(schedule, now) <==> IsUpcomingTrain(schedule, now, t)
    decreases |schedule|
  {
    if |schedule| > 0 {
      var row := schedule[0];
      TrainsListed(schedule[1..], now);
      var here: seq<ListedTrain> := [];
      if IsCurrentRow(row, now) {
        here := StopTrains(ParseTrainTimes(row.trainRight), RowHour(row), now);
        StopTrainsListed(ParseTrainTimes(row.trainRight), RowHour(row), now);
      }
      assert TrainsOf(schedule, now) == here + TrainsOf(schedule[1..], now);
      forall t | IsUpcomingTrain(schedule[1..], now, t)
        ensures IsUpcomingTrain(schedule, now, t)
      {
        var i :| 0 <= i < |schedule[1..]| && RowRuns(schedule[1..][i], now, t);
        assert RowRuns(schedule[i + 1], now, t);
      }
      forall t | IsUpcomingTrain(schedule, now, t)
        ensures RowRuns(row, now, t) || IsUpcomingTrain(schedule[1..], now, t)
      {
        var i :| 0 <= i < |schedule| && RowRuns(schedule[i], now, t);
        if i > 0 {
          assert schedule[1..][i - 1] == schedule[i];
        }
      }
      forall t | t in here
        ensures RowRuns(row, now, t)
      {
      }
      forall t | RowRuns(row, now, t)
        ensures t in here
      {
      }
    }
  }

  /** The bus list of getNextTimes: sorted by time, holding exactly the
      buses some current row lists, and keeping the row order among buses
      at the same instant. */
  lemma NextBuses(now: int, schedule: seq<RawRow>)
    ensures SortedByTime(GetNextTimes(now, schedule).buses)
    ensures multiset(GetNextTimes(now, schedule).buses) == multiset(BusesOf(schedule, now))
    ensures forall b :: b in GetNextTimes(now, schedule).buses <==> IsUpcomingBus(schedule, now, b)
    ensures forall v :: AtTime(GetNextTimes(now, schedule).buses, v) == AtTime(BusesOf(schedule, now), v)
  {
    var pushed := BusesOf(schedule, now);
    SortByTimeSpec(pushed);
    BusesListed(schedule, now);
    forall b ensures b in SortByTime(pushed) <==> b in pushed {
      assert b in multiset(SortByTime(pushed)) <==> b in multiset(pushed);
    }
    forall v ensures AtTime(SortByTime(pushed), v) == AtTime(pushed, v) {
      SortByTimeStable(pushed, v);
    }
  }

  /** The train list of getNextTimes: sorted by time, holding exactly the
      trains some current row lists, and keeping the row order among trains
      at the same instant. */
  lemma NextTrains(now: int, schedule: seq<RawRow>)
    ensures SortedByTime(GetNextTimes(now, schedule).trains)
    ensures multiset(GetNextTimes(now, schedule).trains) == multiset(TrainsOf(schedule, now))
    ensures forall t :: t in GetNextTimes(now, schedule).trains <==> IsUpcomingTrain(schedule, now, t)
    ensures forall v :: AtTime(GetNextTimes(now, schedule).trains, v) == AtTime(TrainsOf(schedule, now), v)
  {
    var pushed := TrainsOf(schedule, now);
    SortByTimeSpec(pushed);
    TrainsListed(schedule, now);
    forall t ensures t in SortByTime(pushed) <==> t in pushed {
      assert t in multiset(SortByTime(pushed)) <==> t in multiset(pushed);
    }
    forall v ensures AtTime(SortByTime(pushed), v) == AtTime(pushed, v) {
      SortByTimeStable(pushed, v);
    }
  }

  /** Every listed bus and train is at or after now, and a bus carries its
      time left from now, which is therefore not negative. */
  lemma ListedNotLeft(now: int, schedule: seq<RawRow>)
    ensures forall b :: b in GetNextTimes(now, schedule).buses ==>
              b.time >= now && b.info.untilMs == b.time - now >= 0
    ensures forall t :: t in GetNextTimes(now, schedule).trains ==> t.time >= now
  {
    NextBuses(now, schedule);
    NextTrains(now, schedule);
  }

  /** An on-demand bus read from a non-digit token of the current hour
      stands for now's hour and minute with no seconds, so it is listed only
      when now falls on a whole minute. */
  lemma OnDemandThisHour(now: int, hour: nat)
    requires hour == HourOf(now)
    ensures TokenBus(None, hour, true, now).Some? <==> now % MinuteMs == 0
  {
    AtOwnClock(now);
  }

  // ---------------------------------------------------------------------------
  // findNextTrain
  // ---------------------------------------------------------------------------

  /** `findNextTrain(arrival, trains)`: the first listed train strictly
      after arrival, or None. */
  function FindNextTrain(arrival: int, trains: seq<ListedTrain>): (r: Option<ListedTrain>)
    ensures r.Some? ==> r.value in trains && r.value.time > arrival
    decreases |trains|
  {
    if |trains| == 0 then None
    else if trains[0].time > arrival then Some(trains[0])
    else FindNextTrain(arrival, trains[1..])
  }

  /** Train k is the first listed train strictly after arrival. */
  ghost predicate IsFirstAfter(trains: seq<ListedTrain>, arrival: int, k: int) {
    && 0 <= k < |trains| && trains[k].time > arrival
    && forall j :: 0 <= j < k ==> trains[j].time <= arrival
  }

  /** The search finds nothing exactly when no listed train is strictly
      after arrival, and otherwise the train the reference definition
      names. */
  lemma {:induction false} NextTrainSpec(arrival: int, trains: seq<ListedTrain>)
    ensures FindNextTrain(arrival, trains).None? <==> forall j :: 0 <= j < |trains| ==> trains[j].time <= arrival
    ensures forall k :: IsFirstAfter(trains, arrival, k) ==> FindNextTrain(arrival, trains) == Some(trains[k])
    decreases |trains|
  {
    if |trains| > 0 {
      NextTrainSpec(arrival, trains[1..]);
      forall k | IsFirstAfter(trains, arrival, k)
        ensures FindNextTrain(arrival, trains) == Some(trains[k])
      {
        if k > 0 {
          assert IsFirstAfter(trains[1..], arrival, k - 1);
        }
      }
      if FindNextTrain(arrival, trains).None? {
        forall j | 0 <= j < |trains|
          ensures trains[j].time <= arrival
        {
          if j > 0 {
            assert trains[j] == trains[1..][j - 1];
          }
        }
      }
    }
  }

  /** On a list sorted by time, the first train strictly after arrival is
      also the earliest one. */
  lemma {:induction false} SortedNextTrainEarliest(arrival: int, trains: seq<ListedTrain>)
    requires SortedByTime(trains)
    ensures var r := FindNextTrain(arrival, trains);
            r.Some? ==>
              && r.value in trains && r.value.time > arrival
              && forall t :: t in trains && t.time > arrival ==> r.value.time <= t.time
    decreases |trains|
  {
    if |trains| > 0 && trains[0].time <= arrival {
      SortedNextTrainEarliest(arrival, trains[1..]);
    }
  }

  // ---------------------------------------------------------------------------
  // generateMessage
  // ---------------------------------------------------------------------------

  /** The urgency of catching bus: on demand for a temporary bus; otherwise
      its time left minus the walk is compared with 3 and then 1 minutes,
      and its time left minus the run with half a minute. None means the
      bus is missed. */
  function Urgency(loc: Location, bus: ListedBus): Option<Tier> {
    if bus.info.isTemporary then Some(OnDemand)
    else if bus.info.untilMs - loc.walk >= LeewayMs then Some(Leeway)
    else if bus.info.untilMs - loc.walk >= DepartSoonMs then Some(DepartSoon)
    else if bus.info.untilMs - loc.run >= HurryMs then Some(Hurry)
    else None
  }

  /** The missed-bus branch: the time left until the second listed bus
      minus the walk, with no check of its sign, or the message that no
      bus runs later today when the list holds one bus. */
  function Missed(loc: Location, buses: seq<ListedBus>): (r: Advice)
    requires |buses| >= 1
    ensures r.TakeLaterBus?
  {
    TakeLaterBus(buses[0].time, if |buses| > 1 then Some(buses[1].info.untilMs - loc.walk) else None)
  }

  function AsTrain(t: Option<ListedTrain>): Option<Train> {
    match t
    case None => None
    case Some(x) => Some(Train(x.time, x.info))
  }

  /** A catchable bus and the first listed train strictly after transfer.
      The bus wait shown is the bus's time left from now. */
  function Connect(tier: Tier, bus: ListedBus, transfer: int, trains: seq<ListedTrain>): (r: Advice)
    ensures r.Board?
  {
    Board(tier, bus.time, bus.info.untilMs, transfer,
          LegOf(AsTrain(FindNextTrain(transfer, trains)), transfer),
          bus.info.untilMs > WalkAdvisoryMs)
  }

  /** `generateMessage` of sites/script.js: only the head of the bus list is
      judged. clock is the instant `Date.now()` reads, from which the
      on-demand transfer is measured. */
  function GenerateMessage(loc: Location, clock: int, buses: seq<ListedBus>, trains: seq<ListedTrain>): (r: Advice)
    ensures r.NoBusToday? <==> |buses| == 0
  {
    if |buses| == 0 then NoBusToday
    else
      var next := buses[0];
      match Urgency(loc, next)
      case None => Missed(loc, buses)
      case Some(tier) =>
        var transfer := if next.info.isTemporary then clock + loc.walk + OnDemandRideMs
                        else next.time + BusTransferMs;
        Connect(tier, next, transfer, trains)
  }

  /** Each tier holds exactly on its range of the head bus's time left,
      every bound inclusive. */
  lemma MessageTiers(loc: Location, clock: int, buses: seq<ListedBus>, trains: seq<ListedTrain>)
    requires |buses| > 0
    ensures var r := GenerateMessage(loc, clock, buses, trains);
            var b := buses[0];
            var slack := b.info.untilMs - loc.walk;
            var runSlack := b.info.untilMs - loc.run;
            && (r.Board? && r.tier == OnDemand <==> b.info.isTemporary)
            && (r.Board? && r.tier == Leeway <==> !b.info.isTemporary && slack >= LeewayMs)
            && (r.Board? && r.tier == DepartSoon <==>
                  !b.info.isTemporary && DepartSoonMs <= slack < LeewayMs)
            && (r.Board? && r.tier == Hurry <==>
                  !b.info.isTemporary && slack < DepartSoonMs && runSlack >= HurryMs)
            && (r.TakeLaterBus? <==>
                  !b.info.isTemporary && slack < DepartSoonMs && runSlack < HurryMs)
  {
  }

  /** A boarded bus is the head of the list; the wait shown is its time
      left from now; walking is advised exactly when that exceeds twenty
      minutes; the train search starts ten minutes after the bus, or
      thirteen minutes after clock plus the walk on demand; the train is
      the first listed one strictly after that instant, or none when no
      listed train is; and its wait is measured from that instant. */
  lemma MessageBoard(loc: Location, clock: int, buses: seq<ListedBus>, trains: seq<ListedTrain>)
    ensures var r := GenerateMessage(loc, clock, buses, trains);
            r.Board? ==>
              && r.busTime == buses[0].time
              && r.busWait == buses[0].info.untilMs
              && (r.preferWalk <==> buses[0].info.untilMs > WalkAdvisoryMs)
              && r.transfer == (if buses[0].info.isTemporary then clock + loc.walk + OnDemandRideMs
                                else buses[0].time + BusTransferMs)
              && (r.train.None? <==> forall j :: 0 <= j < |trains| ==> trains[j].time <= r.transfer)
              && (forall k :: IsFirstAfter(trains, r.transfer, k) ==>
                    r.train.value.time == trains[k].time
                    && r.train.value.destination == trains[k].info)
              && (r.train.Some? ==> r.train.value.wait == TrainWaitOf(r.train.value.time - r.transfer))
  {
    if |buses| > 0 {
      var next := buses[0];
      var transfer := if next.info.isTemporary then clock + loc.walk + OnDemandRideMs
                      else next.time + BusTransferMs;
      NextTrainSpec(transfer, trains);
    }
  }

  /** A missed head bus: the reported wait is the second bus's time left
      minus the walk when there is a second bus, and the message that no
      bus runs later today otherwise. */
  lemma MessageMissed(loc: Location, clock: int, buses: seq<ListedBus>, trains: seq<ListedTrain>)
    ensures var r := GenerateMessage(loc, clock, buses, trains);
            r.TakeLaterBus? ==>
              && r.missed == buses[0].time
              && (r.laterWait.Some? <==> |buses| > 1)
              && (r.laterWait.Some? ==> r.laterWait.value == buses[1].info.untilMs - loc.walk)
  {
  }

  /** The follow-up wait is not checked for sign: from 4号館, a five-minute
      walk, with buses two and three minutes away, the first is missed and
      a wait of minus two minutes is reported. */
  lemma MissedWaitCanBeNegative()
    ensures var loc := Locations["4号館"];
            var buses := [Timed(2 * MinuteMs, BusInfo(2 * MinuteMs, false)),
                          Timed(3 * MinuteMs, BusInfo(3 * MinuteMs, false))];
            GenerateMessage(loc, 0, buses, []) == TakeLaterBus(2 * MinuteMs, Some(-2 * MinuteMs))
  {
  }

  /** The full pipeline of displayMessages for one building: getNextTimes
      at now, then generateMessage, with `Date.now()` read as now. */
  function Recommend(loc: Location, now: int, schedule: seq<RawRow>): (r: Advice)
    ensures r.NoBusToday? <==> |BusesOf(schedule, now)| == 0
  {
    var next := GetNextTimes(now, schedule);
    GenerateMessage(loc, now, next.buses, next.trains)
  }

  /** The head of a sorted list is its earliest element. */
  lemma SortedHeadEarliest(buses: seq<ListedBus>)
    requires SortedByTime(buses) && |buses| > 0
    ensures forall b :: b in buses ==> buses[0].time <= b.time
  {
  }

  /** Over the raw feed: no bus today exactly when no current row lists a
      bus that has not left, and a boarded bus is the earliest such bus. */
  lemma RecommendBus(loc: Location, now: int, schedule: seq<RawRow>)
    ensures var r := Recommend(loc, now, schedule);
            && (r.NoBusToday? <==> forall b :: !IsUpcomingBus(schedule, now, b))
            && (r.Board? ==>
                  exists b :: && IsUpcomingBus(schedule, now, b) && b.time == r.busTime
                              && forall c :: IsUpcomingBus(schedule, now, c) ==> b.time <= c.time)
  {
    var buses := GetNextTimes(now, schedule).buses;
    NextBuses(now, schedule);
    if |buses| > 0 {
      SortedHeadEarliest(buses);
      MessageBoard(loc, now, buses, GetNextTimes(now, schedule).trains);
      assert IsUpcomingBus(schedule, now, buses[0]);
    } else {
      forall b ensures !IsUpcomingBus(schedule, now, b) {
        assert b !in buses;
      }
    }
  }
}

=== FILE: sorting.dfy ===
/** `Array.prototype.sort` with the comparator `(a, b) => a.time - b.time`.
    ECMAScript requires this sort to be stable, so it is modelled as a stable
    insertion sort: the result is ordered by time, holds the same elements,
    and keeps the input order among elements with equal times. */
module Sorting {

  /** An element to sort: its instant and whatever it carries along. */
  datatype Timed<T> = Timed(time: int, info: T)

  ghost predicate SortedByTime<T>(s: seq<Timed<T>>) {
    forall i, j :: 0 <= i < j < |s| ==> s[i].time <= s[j].time
  }

  /** The elements of s at instant v, in their order in s. */
  function AtTime<T>(s: seq<Timed<T>>, v: int): seq<Timed<T>>
    decreases |s|
  {
    if |s| == 0 then []
    else (if s[0].time == v then [s[0]] else []) + AtTime(s[1..], v)
  }

  /** Puts x after every element whose time is not after x's. */
  function Insert<T>(x: Timed<T>, s: seq<Timed<T>>): (r: seq<Timed<T>>)
    ensures |r| == |s| + 1
    decreases |s|
  {
    if |s| == 0 then [x]
    else if x.time < s[0].time then [x] + s
    else [s[0]] + Insert(x, s[1..])
  }

  /** The stable sort by time: each element in turn inserted into the
      sorted prefix before it. */
  function SortByTime<T>(s: seq<Timed<T>>): (r: seq<Timed<T>>)
    ensures |r| == |s|
    decreases |s|
  {
    if |s| == 0 then []
    else Insert(s[|s| - 1], SortByTime(s[..|s| - 1]))
  }

  lemma {:induction false} InsertPermutes<T>(x: Timed<T>, s: seq<Timed<T>>)
    ensures multiset(Insert(x, s)) == multiset(s) + multiset{x}
    decreases |s|
  {
    if |s| > 0 && x.time >= s[0].time {
      InsertPermutes(x, s[1..]);
      assert s == [s[0]] + s[1..];
    }
  }

  lemma {:induction false} InsertSorted<T>(x: Timed<T>, s: seq<Timed<T>>)
    requires SortedByTime(s)
    ensures SortedByTime(Insert(x, s))
    decreases |s|
  {
    if |s| > 0 && x.time >= s[0].time {
      InsertSorted(x, s[1..]);
      var tail := Insert(x, s[1..]);
      InsertPermutes(x, s[1..]);
      forall i | 0 <= i < |tail|
        ensures s[0].time <= tail[i].time
      {
        assert tail[i] in multiset(s[1..]) + multiset{x};
      }
    }
  }

  /** The sort orders by time and is a permutation of its input. */
  lemma {:induction false} SortByTimeSpec<T>(s: seq<Timed<T>>)
    ensures SortedByTime(SortByTime(s))
    ensures multiset(SortByTime(s)) == multiset(s)
    decreases |s|
  {
    if |s| > 0 {
      var init := s[..|s| - 1];
      SortByTimeSpec(init);
      InsertSorted(s[|s| - 1], SortByTime(init));
      InsertPermutes(s[|s| - 1], SortByTime(init));
      assert s == init + [s[|s| - 1]];
    }
  }

  lemma {:induction false} AtTimeAppend<T>(a: seq<Timed<T>>, b: seq<Timed<T>>, v: int)
    ensures AtTime(a + b, v) == AtTime(a, v) + AtTime(b, v)
    decreases |a|
  {
    if |a| == 0 {
      assert a + b == b;
    } else {
      AtTimeAppend(a[1..], b, v);
      assert (a + b)[1..] == a[1..] + b;
    }
  }

  lemma {:induction false} AtTimeAbsent<T>(s: seq<Timed<T>>, v: int)
    requires forall i :: 0 <= i < |s| ==> s[i].time > v
    ensures AtTime(s, v) == []
    decreases |s|
  {
    if |s| > 0 {
      AtTimeAbsent(s[1..], v);
    }
  }

  lemma {:induction false} InsertAtTime<T>(x: Timed<T>, s: seq<Timed<T>>, v: int)
    requires SortedByTime(s)
    ensures AtTime(Insert(x, s), v) == AtTime(s, v) + (if x.time == v then [x] else [])
    decreases |s|
  {
    if |s| == 0 {
    } else if x.time < s[0].time {
      if x.time == v {
        AtTimeAbsent(s, v);
      }
      assert ([x] + s)[1..] == s;
    } else {
      InsertAtTime(x, s[1..], v);
      assert ([s[0]] + Insert(x, s[1..]))[1..] == Insert(x, s[1..]);
    }
  }

  lemma AtTimeSingle<T>(x: Timed<T>, v: int)
    ensures AtTime([x], v) == (if x.time == v then [x] else [])
  {
    assert [x][1..] == [];
  }

  /** Stability: for every instant, the elements at it come out in the
      order they went in. */
  lemma {:induction false} SortByTimeStable<T>(s: seq<Timed<T>>, v: int)
    ensures AtTime(SortByTime(s), v) == AtTime(s, v)
    decreases |s|
  {
    if |s| > 0 {
      var init := s[..|s| - 1];
      var last := s[|s| - 1];
      var sortedInit := SortByTime(init);
      SortByTimeStable(init, v);
      SortByTimeSpec(init);
      InsertAtTime(last, sortedInit, v);
      assert s == init + [last];
      AtTimeAppend(init, [last], v);
      AtTimeSingle(last, v);
    }
  }
}

=== FILE: text.dfy ===
/** String primitives of the feed as JavaScript sees them: the `\d`, `\w`
    character classes, `split('.')`, `includes`, and `parseInt(s, 10)`. */
module Text {
  import opened Wrappers

  /** The `\d` class of a JavaScript regular expression without the `u` flag. */
  predicate IsDigit(c: char) {
    '0' <= c <= '9'
  }

  /** The `\w` class: ASCII letters, digits and the underscore. */
  predicate IsWordChar(c: char) {
    'a' <= c <= 'z' || 'A' <= c <= 'Z' || IsDigit(c) || c == '_'
  }

  predicate AllDigits(s: string) {
    forall i :: 0 <= i < |s| ==> IsDigit(s[i])
  }

  /** `/^\d+$/.test(s)`: one or more digits and nothing else. */
  predicate IsDigits(s: string) {
    |s| > 0 && AllDigits(s)
  }

  function DigitValue(c: char): (d: nat)
    requires IsDigit(c)
    ensures d < 10
  {
    (c as int) - ('0' as int)
  }

  function DigitChar(d: nat): (c: char)
    requires d < 10
    ensures IsDigit(c) && DigitValue(c) == d
  {
    (('0' as int) + d) as char
  }

  /** The decimal value of a string of digits, as `parseInt(s, 10)` reads it. */
  function DigitsValue(s: string): nat
    requires AllDigits(s)
    decreases |s|
  {
    if |s| == 0 then 0
    else 10 * DigitsValue(s[..|s| - 1]) + DigitValue(s[|s| - 1])
  }

  /** Two digits read as a number are below one hundred, and the digits of a
      number below one hundred read back as that number. */
  lemma TwoDigits(a: char, b: char)
    requires IsDigit(a) && IsDigit(b)
    ensures DigitsValue([a, b]) == 10 * DigitValue(a) + DigitValue(b) < 100
  {
    assert [a, b][..1] == [a];
    assert [a][..0] == [];
    assert DigitsValue([a]) == DigitValue(a);
    assert DigitsValue([a, b]) == 10 * DigitsValue([a]) + DigitValue(b);
  }

  // ---------------------------------------------------------------------------
  // String.prototype.split('.')
  // ---------------------------------------------------------------------------

  /** `s.split('.')`: the pieces between the dots, in order; the empty string
      splits into one empty piece, and adjacent dots give empty pieces. */
  function Split(s: string): (parts: seq<string>)
    ensures |parts| >= 1
    decreases |s|
  {
    if |s| == 0 then [""]
    else
      var rest := Split(s[1..]);
      if s[0] == '.' then [""] + rest
      else [[s[0]] + rest[0]] + rest[1..]
  }

  /** `parts.join('.')`, the inverse of Split. */
  function Join(parts: seq<string>): (s: string)
    requires |parts| >= 1
    ensures |s| >= |parts[0]|
    decreases |parts|
  {
    if |parts| == 1 then parts[0]
    else parts[0] + "." + Join(parts[1..])
  }

  predicate DotFree(s: string) {
    forall i :: 0 <= i < |s| ==> s[i] != '.'
  }

  /** The pieces of a split hold no dot. */
  lemma {:induction false} SplitPiecesDotFree(s: string)
    ensures forall i :: 0 <= i < |Split(s)| ==> DotFree(Split(s)[i])
    decreases |s|
  {
    if |s| > 0 {
      var rest := Split(s[1..]);
      SplitPiecesDotFree(s[1..]);
      if s[0] != '.' {
        var head := [s[0]] + rest[0];
        assert DotFree(rest[0]);
        assert DotFree(head) by {
          forall k | 0 <= k < |head| ensures head[k] != '.' {
            if k > 0 {
              assert head[k] == rest[0][k - 1];
            }
          }
        }
        assert Split(s) == [head] + rest[1..];
      }
    }
  }

  /** Splitting loses nothing: the pieces join back to the original
      string. */
  lemma {:induction false} JoinSplit(s: string)
    ensures Join(Split(s)) == s
    decreases |s|
  {
    if |s| > 0 {
      var rest := Split(s[1..]);
      JoinSplit(s[1..]);
      if s[0] == '.' {
        assert Split(s) == [""] + rest;
        assert s == "" + "." + s[1..];
      } else {
        var parts := Split(s);
        assert parts == [[s[0]] + rest[0]] + rest[1..];
        if |rest| == 1 {
          assert Join(parts) == [s[0]] + rest[0];
        } else {
          assert parts[1..] == rest[1..];
          assert Join(rest) == rest[0] + "." + Join(rest[1..]);
          assert Join(parts) == [s[0]] + rest[0] + "." + Join(rest[1..]);
        }
        assert s == [s[0]] + s[1..];
      }
    }
  }

  lemma {:induction false} SplitDotFree(p: string)
    requires DotFree(p)
    ensures Split(p) == [p]
    decreases |p|
  {
    if |p| > 0 {
      SplitDotFree(p[1..]);
      assert [p[0]] + p[1..] == p;
    }
  }

  lemma {:induction false} SplitAfterPiece(p: string, tail: string)
    requires DotFree(p)
    ensures Split(p + "." + tail) == [p] + Split(tail)
    decreases |p|
  {
    if |p| == 0 {
      assert p + "." + tail == "." + tail;
      assert ("." + tail)[1..] == tail;
    } else {
      var s := p + "." + tail;
      assert s[1..] == p[1..] + "." + tail;
      SplitAfterPiece(p[1..], tail);
      assert [p[0]] + p[1..] == p;
    }
  }

  /** Joining dot-free pieces and splitting again gives the pieces back. */
  lemma {:induction false} SplitJoin(parts: seq<string>)
    requires |parts| >= 1
    requires forall i :: 0 <= i < |parts| ==> DotFree(parts[i])
    ensures Split(Join(parts)) == parts
    decreases |parts|
  {
    if |parts| == 1 {
      SplitDotFree(parts[0]);
    } else {
      SplitJoin(parts[1..]);
      SplitAfterPiece(parts[0], Join(parts[1..]));
      assert [parts[0]] + parts[1..] == parts;
    }
  }

  // ---------------------------------------------------------------------------
  // String.prototype.includes
  // ---------------------------------------------------------------------------

  predicate StartsWith(s: string, pattern: string) {
    |pattern| <= |s| && s[..|pattern|] == pattern
  }

  /** `s.includes(pattern)`, scanning start positions left to right. */
  predicate Contains(s: string, pattern: string)
    decreases |s|
  {
    StartsWith(s, pattern) || (|s| > 0 && Contains(s[1..], pattern))
  }

  /** The pattern sits at offset i of s. */
  predicate OccursAt(s: string, pattern: string, i: int) {
    0 <= i <= |s| - |pattern| && s[i..i + |pattern|] == pattern
  }

  /** Contains holds exactly when the pattern occurs at some offset. */
  lemma {:induction false} ContainsOccurs(s: string, pattern: string)
    ensures Contains(s, pattern) <==> exists i :: OccursAt(s, pattern, i)
    decreases |s|
  {
    if StartsWith(s, pattern) {
      assert OccursAt(s, pattern, 0);
    }
    if |s| > 0 {
      ContainsOccurs(s[1..], pattern);
      if Contains(s[1..], pattern) {
        var i :| OccursAt(s[1..], pattern, i);
        assert s[1..][i..i + |pattern|] == s[i + 1..i + 1 + |pattern|];
        assert OccursAt(s, pattern, i + 1);
      }
      if exists i :: OccursAt(s, pattern, i) {
        var i :| OccursAt(s, pattern, i);
        if i > 0 {
          assert s[1..][i - 1..i - 1 + |pattern|] == s[i..i + |pattern|];
          assert OccursAt(s[1..], pattern, i - 1);
        }
      }
    } else {
      if exists i :: OccursAt(s, pattern, i) {
        var i :| OccursAt(s, pattern, i);
        assert i == 0;
      }
    }
  }

  // ---------------------------------------------------------------------------
  // parseInt(s, 10)
  // ---------------------------------------------------------------------------

  /** The characters parseInt skips before the number: StrWhiteSpaceChar of
      ECMAScript, that is the white space and line terminator characters,
      including every character of Unicode category Zs. */
  predicate IsJsSpace(c: char) {
    || c == '\t' || c == '\n' || c == '\U{B}' || c == '\U{C}' || c == '\r'
    || c == ' ' || c == '\U{A0}' || c == '\U{1680}'
    || ('\U{2000}' <= c <= '\U{200A}')
    || c == '\U{2028}' || c == '\U{2029}' || c == '\U{202F}' || c == '\U{205F}'
    || c == '\U{3000}' || c == '\U{FEFF}'
  }

  function TrimStart(s: string): (t: string)
    ensures |t| <= |s| && t == s[|s| - |t|..]
    ensures |t| > 0 ==> !IsJsSpace(t[0])
    decreases |s|
  {
    if |s| > 0 && IsJsSpace(s[0]) then TrimStart(s[1..]) else s
  }

  /** The longest prefix of s made of digits. */
  function DigitPrefix(s: string): (d: string)
    ensures AllDigits(d) && |d| <= |s| && d == s[..|d|]
    ensures |d| < |s| ==> !IsDigit(s[|d|])
    decreases |s|
  {
    if |s| > 0 && IsDigit(s[0]) then [s[0]] + DigitPrefix(s[1..]) else ""
  }

  /** `parseInt(s, 10)`: skip leading white space, read an optional sign and
      then as many digits as there are; no digit at all gives `NaN`, modelled
      as None. Characters after the digits are ignored. */
  function JsParseInt(s: string): Option<int> {
    var t := TrimStart(s);
    if |t| > 0 && (t[0] == '-' || t[0] == '+') then
      var d := DigitPrefix(t[1..]);
      if |d| == 0 then None
      else
        var v: int := DigitsValue(d);
        Some(if t[0] == '-' then -v else v)
    else
      var d := DigitPrefix(t);
      if |d| == 0 then None
      else
        var v: int := DigitsValue(d);
        Some(v)
  }

  lemma {:induction false} DigitPrefixOfDigits(s: string)
    requires AllDigits(s)
    ensures DigitPrefix(s) == s
    decreases |s|
  {
    if |s| > 0 {
      DigitPrefixOfDigits(s[1..]);
      assert [s[0]] + s[1..] == s;
    }
  }

  /** On a string that passes `/^\d+$/`, parseInt reads exactly its decimal
      value, so the two ways the source reads an hour agree there. */
  lemma JsParseIntOfDigits(s: string)
    requires IsDigits(s)
    ensures JsParseInt(s) == Some(DigitsValue(s))
  {
    assert !IsJsSpace(s[0]);
    DigitPrefixOfDigits(s);
  }
}

=== FILE: versions.dfy ===
/** Where script.js and sites/script.js part ways, stated over both models
    side by side: the train comparison, the minute of an on-demand row, and
    the instant the bus wait is measured from. */
module Versions {
  import opened Wrappers
  import opened Clock
  import opened Sorting
  import opened Recommendation
  import Widget
  import SitesWidget

  /** A dated train leaving exactly at the transfer instant is at the
      earliest possible time for script.js's `>=` search, so that search
      finds a train at that instant; the `>` search of sites/script.js never
      returns a train at the instant it is given. */
  lemma TrainAtTransfer(trains: seq<Widget.ListedTrain>, listed: seq<SitesWidget.ListedTrain>, transfer: int, c: Train)
    requires c in Widget.TrainCandidates(trains, transfer) && c.time == transfer
    ensures Widget.FindNextTrain(trains, transfer).Some?
    ensures Widget.FindNextTrain(trains, transfer).value.time == transfer
    ensures SitesWidget.FindNextTrain(transfer, listed).Some? ==>
              SitesWidget.FindNextTrain(transfer, listed).value.time > transfer
  {
    Widget.NextTrainSpec(trains, transfer);
    SitesFoundIsLater(transfer, listed);
  }

  lemma {:induction false} SitesFoundIsLater(arrival: int, listed: seq<SitesWidget.ListedTrain>)
    ensures SitesWidget.FindNextTrain(arrival, listed).Some? ==>
              SitesWidget.FindNextTrain(arrival, listed).value.time > arrival
    decreases |listed|
  {
    if |listed| > 0 && listed[0].time <= arrival {
      SitesFoundIsLater(arrival, listed[1..]);
    }
  }

  /** On an on-demand row a digit token means the search instant's minute
      in script.js, whatever its digits say, while sites/script.js keeps
      the digits and only flags the bus. */
  lemma OnDemandDigitToken(m: nat, hour: nat, t: int)
    ensures Widget.TokenBus(Some(m), hour, true, t) == Some(Widget.Bus(At(t, hour, MinuteOf(t)), true))
    ensures SitesWidget.TokenBus(Some(m), hour, true, t).Some? <==> At(t, hour, m) >= t
    ensures SitesWidget.TokenBus(Some(m), hour, true, t).Some? ==>
              SitesWidget.TokenBus(Some(m), hour, true, t).value
                == Timed(At(t, hour, m), SitesWidget.BusInfo(At(t, hour, m) - t, true))
  {
  }

  /** For the same bus, the wait sites/script.js reports (from now) is the
      wait script.js reports (from the walking arrival) plus the walk, so
      the walking advisory of sites/script.js comes on a walk earlier. */
  lemma WaitBaselines(tier: Tier, time: int, now: int, walk: nat, temporary: bool, transfer: int,
                      trains: seq<Widget.ListedTrain>, listed: seq<SitesWidget.ListedTrain>)
    ensures var fromArrival := Widget.Connect(tier, Widget.Bus(time, temporary), now + walk, transfer, trains);
            var fromNow := SitesWidget.Connect(tier, Timed(time, SitesWidget.BusInfo(time - now, temporary)), transfer, listed);
            && fromNow.busWait == fromArrival.busWait + walk
            && (WalkAdvisoryMs < time - now <= WalkAdvisoryMs + walk ==> fromNow.preferWalk && !fromArrival.preferWalk)
  {
  }
}

=== FILE: widget.dfy ===
/** The engine of script.js: buses are searched from the walking arrival
    with an inclusive bound, an on-demand row stands for the arrival's
    minute, and trains are searched with `>=` from the transfer instant. */
module Widget {
  import opened Wrappers
  import opened Text
  import opened Clock
  import opened Feed
  import opened Search
  import opened Recommendation

  // ---------------------------------------------------------------------------
  // Bus candidates (findNextBus)
  // ---------------------------------------------------------------------------

  /** A bus candidate: its departure instant and whether its row runs on
      demand. */
  datatype Bus = Bus(time: int, isTemporary: bool)

  /** The departure instants of a candidate list, position by position. */
  function BusTimes(cs: seq<Bus>): (r: seq<int>)
    ensures |r| == |cs|
  {
    if |cs| == 0 then [] else [cs[0].time] + BusTimes(cs[1..])
  }

  lemma {:induction false} BusTimesAt(cs: seq<Bus>)
    ensures forall i :: 0 <= i < |cs| ==> BusTimes(cs)[i] == cs[i].time
  {
    if |cs| > 0 {
      BusTimesAt(cs[1..]);
    }
  }

  /** The minute a read bus token stands for. On an on-demand row every
      token, digits or not, stands for the bound's minute; on another row a
      digit token stands for its value and any other token for nothing. */
  function TokenMinute(token: Option<nat>, onDemand: bool, bound: int): Option<nat> {
    if onDemand then Some(MinuteOf(bound)) else token
  }

  /** The candidate a token of a row with the given hour yields. */
  function TokenBus(token: Option<nat>, hour: nat, onDemand: bool, bound: int): Option<Bus> {
    match TokenMinute(token, onDemand, bound)
    case None => None
    case Some(m) => Some(Bus(At(bound, hour, m), onDemand))
  }

  /** Some token yields bus b. */
  ghost predicate TokensOffer(tokens: seq<Option<nat>>, hour: nat, onDemand: bool, bound: int, b: Bus) {
    exists j :: 0 <= j < |tokens| && TokenBus(tokens[j], hour, onDemand, bound) == Some(b)
  }

  /** The candidates of a row's tokens, in token order. */
  function TokenBuses(tokens: seq<Option<nat>>, hour: nat, onDemand: bool, bound: int): (r: seq<Bus>)
    ensures |r| <= |tokens|
    decreases |tokens|
  {
    if |tokens| == 0 then []
    else
      var head := match TokenBus(tokens[0], hour, onDemand, bound)
        case None => []
        case Some(b) => [b];
      head + TokenBuses(tokens[1..], hour, onDemand, bound)
  }

  /** A row's tokens yield exactly the buses some token stands for, and on
      an on-demand row every token yields one. */
  lemma {:induction false} TokenBusesOffer(tokens: seq<Option<nat>>, hour: nat, onDemand: bool, bound: int)
    ensures forall b :: b in TokenBuses(tokens, hour, onDemand, bound) <==> TokensOffer(tokens, hour, onDemand, bound, b)
    ensures onDemand ==> |TokenBuses(tokens, hour, onDemand, bound)| == |tokens|
    decreases |tokens|
  {
    if |tokens| > 0 {
      TokenBusesOffer(tokens[1..], hour, onDemand, bound);
      assert forall j :: 0 <= j < |tokens[1..]| ==> tokens[1..][j] == tokens[j + 1];
      forall b | TokensOffer(tokens, hour, onDemand, bound, b)
        ensures b in TokenBuses(tokens, hour, onDemand, bound)
      {
        var j :| 0 <= j < |tokens| && TokenBus(tokens[j], hour, onDemand, bound) == Some(b);
        if j > 0 {
          assert TokensOffer(tokens[1..], hour, onDemand, bound, b) by {
            assert TokenBus(tokens[1..][j - 1], hour, onDemand, bound) == Some(b);
          }
        }
      }
    }
  }

  /** The rows the bus search reads: those whose hour passes `/^\d+$/` and
      that have a `bus_right` block, in schedule order. */
  function BusLines(schedule: seq<RawRow>): seq<BusLine>
    decreases |schedule|
  {
    if |schedule| == 0 then []
    else
      var row := schedule[0];
      var here := if HasDigitHour(row) && row.busRight.Some?
                  then [BusLineOf(RowHour(row), row.busRight.value)] else [];
      here + BusLines(schedule[1..])
  }

  function LineBuses(line: BusLine, bound: int): seq<Bus> {
    TokenBuses(line.tokens, line.hour, line.onDemand, bound)
  }

  /** The candidates in the order the nested forEach visits them. */
  function BusCandidates(lines: seq<BusLine>, bound: int): seq<Bus>
    decreases |lines|
  {
    if |lines| == 0 then []
    else LineBuses(lines[0], bound) + BusCandidates(lines[1..], bound)
  }

  /** Reference definition, on the raw row: a row without a digit hour or
      without `bus_right` offers nothing; an on-demand row offers, if it has
      any token at all, the bus at its hour and the bound's minute, flagged
      temporary; another row offers an unflagged bus for each digit token. */
  ghost predicate RowOffers(row: RawRow, bound: int, b: Bus) {
    && HasDigitHour(row) && row.busRight.Some?
    && var tokens := BusTokens(row.busRight.value);
       if IsOnDemand(row.busRight.value) then
         |tokens| > 0 && b == Bus(At(bound, RowHour(row), MinuteOf(bound)), true)
       else
         && !b.isTemporary
         && exists j :: 0 <= j < |tokens| && IsDigits(tokens[j])
                        && b.time == At(bound, RowHour(row), DigitsValue(tokens[j]))
  }

  /** Reference definition: some row of the schedule offers bus b. */
  ghost predicate IsBusCandidate(schedule: seq<RawRow>, bound: int, b: Bus) {
    exists i :: 0 <= i < |schedule| && RowOffers(schedule[i], bound, b)
  }

  /** A row's candidates are exactly the buses the rules let it offer. */
  lemma RowBusesOffered(row: RawRow, bound: int, b: Bus)
    requires HasDigitHour(row) && row.busRight.Some?
    ensures b in LineBuses(BusLineOf(RowHour(row), row.busRight.value), bound) <==> RowOffers(row, bound, b)
  {
    var block := row.busRight.value;
    var tokens := BusTokens(block);
    var read := ReadTokens(tokens);
    var line := BusLineOf(RowHour(row), block);
    TokenBusesOffer(read, RowHour(row), IsOnDemand(block), bound);
    if IsOnDemand(block) {
      if |tokens| > 0 {
        assert TokenBus(read[0], RowHour(row), true, bound) == Some(Bus(At(bound, RowHour(row), MinuteOf(bound)), true));
      }
    } else {
      if TokensOffer(read, RowHour(row), false, bound, b) {
        var j :| 0 <= j < |read| && TokenBus(read[j], RowHour(row), false, bound) == Some(b);
        assert IsDigits(tokens[j]);
      }
      if exists j :: 0 <= j < |tokens| && IsDigits(tokens[j])
                     && b.time == At(bound, RowHour(row), DigitsValue(tokens[j])) {
        var j :| 0 <= j < |tokens| && IsDigits(tokens[j])
                 && b.time == At(bound, RowHour(row), DigitsValue(tokens[j]));
        if !b.isTemporary {
          assert TokenBus(read[j], RowHour(row), false, bound) == Some(b);
        }
      }
    }
  }

  /** The candidates are exactly the buses some row offers. */
  lemma {:induction false} BusCandidatesOffered(schedule: seq<RawRow>, bound: int)
    ensures forall b :: b in BusCandidates(BusLines(schedule), bound) <==> IsBusCandidate(schedule, bound, b)
    decreases |schedule|
  {
    if |schedule| > 0 {
      var row := schedule[0];
      var rest := BusLines(schedule[1..]);
      BusCandidatesOffered(schedule[1..], bound);
      var here: seq<Bus> := [];
      if HasDigitHour(row) && row.busRight.Some? {
        var line := BusLineOf(RowHour(row), row.busRight.value);
        assert BusLines(schedule) == [line] + rest;
        assert ([line] + rest)[1..] == rest;
        here := LineBuses(line, bound);
        forall b ensures b in here <==> RowOffers(row, bound, b) {
          RowBusesOffered(row, bound, b);
        }
      } else {
        assert BusLines(schedule) == rest;
      }
      assert BusCandidates(BusLines(schedule), bound) == here + BusCandidates(rest, bound);
      forall b | IsBusCandidate(schedule[1..], bound, b)
        ensures IsBusCandidate(schedule, bound, b)
      {
        var i :| 0 <= i < |schedule[1..]| && RowOffers(schedule[1..][i], bound, b);
        assert RowOffers(schedule[i + 1], bound, b);
      }
      forall b | IsBusCandidate(schedule, bound, b)
        ensures RowOffers(row, bound, b) || IsBusCandidate(schedule[1..], bound, b)
      {
        var i :| 0 <= i < |schedule| && RowOffers(schedule[i], bound, b);
        if i > 0 {
          assert schedule[1..][i - 1] == schedule[i];
        }
      }
      forall b | RowOffers(row, bound, b)
        ensures IsBusCandidate(schedule, bound, b)
      {
      }
    }
  }

  /** No candidate is at or after bound. */
  ghost predicate NoneFrom(lines: seq<BusLine>, bound: int) {
    forall b :: b in BusCandidates(lines, bound) ==> b.time < bound
  }

  /** Reference definition: bus b is a candidate at or after bound that no
      other such candidate precedes. */
  ghost predicate IsEarliestBusFrom(lines: seq<BusLine>, bound: int, b: Bus) {
    && b in BusCandidates(lines, bound) && b.time >= bound
    && forall c :: c in BusCandidates(lines, bound) && c.time >= bound ==> b.time <= c.time
  }

  /** `findNextBus(schedule, bound)`: None when no candidate is at or after
      bound; otherwise a candidate at or after bound that no other such
      candidate precedes, the first one seen winning a tie. */
  function FindNextBus(lines: seq<BusLine>, bound: int): (r: Option<Bus>)
    ensures r.Some? ==> r.value.time >= bound
  {
    var cs := BusCandidates(lines, bound);
    var k := FirstEarliest(BusTimes(cs), bound);
    if k.None? then None
    else
      BusTimesAt(cs);
      Some(cs[k.value])
  }

  /** findNextBus finds nothing exactly when no candidate is at or after
      bound, and otherwise a candidate at or after bound that no other such
      candidate precedes. */
  lemma NextBusSpec(lines: seq<BusLine>, bound: int)
    ensures var r := FindNextBus(lines, bound);
            && (r.None? <==> NoneFrom(lines, bound))
            && (r.Some? ==> IsEarliestBusFrom(lines, bound, r.value))
  {
    var cs := BusCandidates(lines, bound);
    var k := FirstEarliest(BusTimes(cs), bound);
    FirstEarliestSpec(BusTimes(cs), bound);
    BusTimesAt(cs);
    forall b | b in cs
      ensures k.None? ==> b.time < bound
      ensures k.Some? && b.time >= bound ==> cs[k.value].time <= b.time
    {
      var j :| 0 <= j < |cs| && cs[j] == b;
      assert BusTimes(cs)[j] == b.time;
    }
  }

  /** An on-demand bus in the bound's own hour stands for the bound's hour
      and minute with no seconds, so it is at or after the bound, and can be
      found at all, only when the bound falls on a whole minute. */
  lemma OnDemandSameHour(row: RawRow, bound: int, b: Bus)
    requires RowOffers(row, bound, b) && b.isTemporary
    requires RowHour(row) == HourOf(bound)
    ensures b.time >= bound <==> bound % MinuteMs == 0
    ensures b.time <= bound
  {
    AtOwnClock(bound);
  }

  // ---------------------------------------------------------------------------
  // Train candidates (displayMessages' collection loop, findNextTrain)
  // ---------------------------------------------------------------------------

  /** The hour `parseInt(train.time, 10)` reads from a row's raw hour field,
      or None for `NaN` (an absent field reads as `NaN` too). */
  function ParseHour(time: Option<string>): Option<int> {
    if time.Some? then JsParseInt(time.value) else None
  }

  /** An entry of `allTrainTimes`: a parsed train of a row, with the hour
      findNextTrain reads from that row's raw, unchecked hour field. The
      script stores the raw field and parses it on every search; parsing is
      pure, so parsing once gives the same hour. */
  datatype ListedTrain = ListedTrain(hour: Option<int>, minute: nat, destination: Destination)

  function Tagged(hour: Option<int>, stops: seq<TrainStop>): (r: seq<ListedTrain>)
    ensures forall t :: t in r <==> exists s :: s in stops && t == ListedTrain(hour, s.minute, s.destination)
    decreases |stops|
  {
    if |stops| == 0 then []
    else
      var rest := Tagged(hour, stops[1..]);
      assert forall s :: s in stops <==> s == stops[0] || s in stops[1..];
      [ListedTrain(hour, stops[0].minute, stops[0].destination)] + rest
  }

  /** Reference definition: row i of the schedule lists train t. */
  ghost predicate RowLists(schedule: seq<RawRow>, i: int, t: ListedTrain) {
    && 0 <= i < |schedule|
    && schedule[i].trainRight.Some?
    && exists s :: s in ParseTrainTimes(schedule[i].trainRight)
                   && t == ListedTrain(ParseHour(schedule[i].time), s.minute, s.destination)
  }

  /** Reference definition: some row of the schedule lists train t. */
  ghost predicate IsListed(schedule: seq<RawRow>, t: ListedTrain) {
    exists i :: RowLists(schedule, i, t)
  }

  /** The collection loop: every row with a `train_right` block contributes
      its parsed trains tagged with its raw hour field, whether or not that
      field is a valid hour; exactly the trains some row lists. */
  function CollectTrainTimes(schedule: seq<RawRow>): (r: seq<ListedTrain>)
    ensures forall t :: t in r <==> IsListed(schedule, t)
    ensures forall j :: 0 <= j < |r| ==> r[j].minute < 100
    decreases |schedule|
  {
    if |schedule| == 0 then []
    else
      var row := schedule[0];
      var here := if row.trainRight.Some? then Tagged(ParseHour(row.time), ParseTrainTimes(row.trainRight)) else [];
      var rest := CollectTrainTimes(schedule[1..]);
      ListedSplit(schedule, here);
      here + rest
  }

  lemma ListedSplit(schedule: seq<RawRow>, here: seq<ListedTrain>)
    requires |schedule| > 0
    requires here == if schedule[0].trainRight.Some?
                     then Tagged(ParseHour(schedule[0].time), ParseTrainTimes(schedule[0].trainRight)) else []
    ensures forall t :: IsListed(schedule, t) <==> t in here || IsListed(schedule[1..], t)
    ensures forall t :: t in here ==> t.minute < 100
  {
    forall t | IsListed(schedule[1..], t)
      ensures IsListed(schedule, t)
    {
      var i :| RowLists(schedule[1..], i, t);
      assert RowLists(schedule, i + 1, t);
    }
    forall t | IsListed(schedule, t)
      ensures t in here || IsListed(schedule[1..], t)
    {
      var i :| RowLists(schedule, i, t);
      if i > 0 {
        assert RowLists(schedule[1..], i - 1, t);
      }
    }
    forall t | t in here
      ensures RowLists(schedule, 0, t) && t.minute < 100
    {
      var s :| s in ParseTrainTimes(schedule[0].trainRight) && t == ListedTrain(ParseHour(schedule[0].time), s.minute, s.destination);
    }
  }

  /** The collection keeps the schedule's order: the trains of the rows of
      a come before those of the rows of b. */
  lemma {:induction false} CollectTrainTimesAppend(a: seq<RawRow>, b: seq<RawRow>)
    ensures CollectTrainTimes(a + b) == CollectTrainTimes(a) + CollectTrainTimes(b)
    decreases |a|
  {
    if |a| == 0 {
      assert a + b == b;
    } else {
      assert (a + b)[0] == a[0];
      assert (a + b)[1..] == a[1..] + b;
      CollectTrainTimesAppend(a[1..], b);
    }
  }

  /** A single row contributes its parsed trains in their order, those of
      `num1` before those of `num2`, each tagged with the row's raw hour. */
  lemma CollectTrainTimesRow(row: RawRow)
    requires row.trainRight.Some?
    ensures CollectTrainTimes([row])
              == Tagged(ParseHour(row.time), ParseTrainSet(row.trainRight.value.num1))
                 + Tagged(ParseHour(row.time), ParseTrainSet(row.trainRight.value.num2))
  {
    assert [row][1..] == [];
    TaggedAppend(ParseHour(row.time), ParseTrainSet(row.trainRight.value.num1), ParseTrainSet(row.trainRight.value.num2));
  }

  lemma {:induction false} TaggedAppend(hour: Option<int>, a: seq<TrainStop>, b: seq<TrainStop>)
    ensures Tagged(hour, a + b) == Tagged(hour, a) + Tagged(hour, b)
    decreases |a|
  {
    if |a| == 0 {
      assert a + b == b;
    } else {
      assert (a + b)[0] == a[0];
      assert (a + b)[1..] == a[1..] + b;
      TaggedAppend(hour, a[1..], b);
    }
  }

  /** Reference definition: listed train t, dated from bound, is c. */
  ghost predicate IsTrainCandidate(trains: seq<ListedTrain>, bound: int, c: Train) {
    exists t :: t in trains && t.hour.Some?
                && c == Train(At(bound, t.hour.value, t.minute), t.destination)
  }

  /** The dated trains findNextTrain compares. A train whose hour is `NaN`
      makes an invalid date, which no comparison accepts, so it is left out. */
  function TrainCandidates(trains: seq<ListedTrain>, bound: int): seq<Train>
    decreases |trains|
  {
    if |trains| == 0 then []
    else
      var t := trains[0];
      var rest := TrainCandidates(trains[1..], bound);
      match t.hour
      case None => rest
      case Some(h) => [Train(At(bound, h, t.minute), t.destination)] + rest
  }

  /** The dated trains are exactly the listed trains with a numeric hour. */
  lemma {:induction false} TrainCandidatesDated(trains: seq<ListedTrain>, bound: int)
    ensures forall c :: c in TrainCandidates(trains, bound) <==> IsTrainCandidate(trains, bound, c)
    decreases |trains|
  {
    if |trains| > 0 {
      TrainCandidatesDated(trains[1..], bound);
      assert forall x :: x in trains <==> x == trains[0] || x in trains[1..];
    }
  }

  /** Reference definition: train c is a candidate at or after bound that no
      other such candidate precedes. */
  ghost predicate IsEarliestTrainFrom(cands: seq<Train>, bound: int, c: Train) {
    && c in cands && c.time >= bound
    && forall d :: d in cands && d.time >= bound ==> c.time <= d.time
  }

  /** `findNextTrain(trainTimes, bound)` of script.js: the first earliest
      dated train at or after bound (`>=`), or None when there is none. */
  function FindNextTrain(trains: seq<ListedTrain>, bound: int): (r: Option<Train>)
    ensures r.Some? ==> r.value.time >= bound
  {
    var cs := TrainCandidates(trains, bound);
    var k := FirstEarliest(TrainTimes(cs), bound);
    if k.None? then None
    else
      TrainTimesAt(cs);
      Some(cs[k.value])
  }

  /** findNextTrain finds nothing exactly when no dated train is at or after
      bound, and otherwise one no other such train precedes. */
  lemma NextTrainSpec(trains: seq<ListedTrain>, bound: int)
    ensures var r := FindNextTrain(trains, bound);
            && (r.None? <==> forall c :: c in TrainCandidates(trains, bound) ==> c.time < bound)
            && (r.Some? ==> IsEarliestTrainFrom(TrainCandidates(trains, bound), bound, r.value))
  {
    var cs := TrainCandidates(trains, bound);
    var k := FirstEarliest(TrainTimes(cs), bound);
    FirstEarliestSpec(TrainTimes(cs), bound);
    TrainTimesAt(cs);
    forall c | c in cs
      ensures k.None? ==> c.time < bound
      ensures k.Some? && c.time >= bound ==> cs[k.value].time <= c.time
    {
      var j :| 0 <= j < |cs| && cs[j] == c;
      assert TrainTimes(cs)[j] == c.time;
    }
  }

  /** A train listed on a row whose hour passes `/^\d+$/` is dated at that
      hour: parseInt and the digit test agree on such a row. */
  lemma ListedTrainOfDigitRow(schedule: seq<RawRow>, i: int, s: TrainStop, bound: int)
    requires 0 <= i < |schedule| && HasDigitHour(schedule[i])
    requires schedule[i].trainRight.Some? && s in ParseTrainTimes(schedule[i].trainRight)
    ensures Train(At(bound, RowHour(schedule[i]), s.minute), s.destination)
              in TrainCandidates(CollectTrainTimes(schedule), bound)
  {
    var t := ListedTrain(ParseHour(schedule[i].time), s.minute, s.destination);
    assert RowLists(schedule, i, t);
    assert IsListed(schedule, t);
    TrainCandidatesDated(CollectTrainTimes(schedule), bound);
    JsParseIntOfDigits(schedule[i].time.value);
    assert t.hour == Some(RowHour(schedule[i]) as int);
  }

  // ---------------------------------------------------------------------------
  // generateMessage
  // ---------------------------------------------------------------------------

  /** A catchable bus and the train that connects to it, searched from
      transfer. The bus wait is measured from the walking arrival. */
  function Connect(tier: Tier, bus: Bus, walkArrival: int, transfer: int, trains: seq<ListedTrain>): (r: Advice)
    ensures r.Board?
  {
    var busWait := bus.time - walkArrival;
    Board(tier, bus.time, busWait, transfer, LegOf(FindNextTrain(trains, transfer), transfer), busWait > WalkAdvisoryMs)
  }

  /** The boarding advice keeps the tier, bus and transfer it was given,
      reports the wait from the walking arrival, advises walking exactly
      when that wait exceeds twenty minutes, and names the earliest train at
      or after the transfer instant, or none when no train is left. */
  lemma ConnectSpec(tier: Tier, bus: Bus, walkArrival: int, transfer: int, trains: seq<ListedTrain>)
    ensures var r := Connect(tier, bus, walkArrival, transfer, trains);
            && r.tier == tier && r.busTime == bus.time && r.transfer == transfer
            && r.busWait == bus.time - walkArrival
            && (r.preferWalk <==> r.busWait > WalkAdvisoryMs)
            && (r.train.None? <==> forall c :: c in TrainCandidates(trains, transfer) ==> c.time < transfer)
            && (r.train.Some? ==>
                  IsEarliestTrainFrom(TrainCandidates(trains, transfer), transfer,
                                      Train(r.train.value.time, r.train.value.destination)))
  {
    NextTrainSpec(trains, transfer);
  }

  /** The missed-bus branch: the next bus is searched from one minute after
      the missed one, and its wait from the walking arrival is reported, or
      nothing when that wait would be negative. */
  function MissedBus(lines: seq<BusLine>, missed: int, walkArrival: int): (r: Advice)
    ensures r.TakeLaterBus? && r.missed == missed
  {
    match FindNextBus(lines, missed + MinuteMs)
    case None => TakeLaterBus(missed, None)
    case Some(later) =>
      var laterWait := later.time - walkArrival;
      TakeLaterBus(missed, if laterWait >= 0 then Some(laterWait) else None)
  }

  /** The follow-up wait is that of the earliest candidate from one minute
      after the missed bus, measured from the walking arrival, or nothing
      when there is no such candidate or its wait would be negative. It
      therefore reaches at least one minute past the missed bus; when the
      missed bus is not before the walking arrival, the message that no bus
      runs later today appears exactly when the search from one minute on
      finds nothing. */
  lemma MissedBusSpec(lines: seq<BusLine>, missed: int, walkArrival: int)
    ensures var r := MissedBus(lines, missed, walkArrival);
            var from := missed + MinuteMs;
            && (NoneFrom(lines, from) ==> r.laterWait.None?)
            && (forall b :: IsEarliestBusFrom(lines, from, b) ==>
                  r.laterWait == (if b.time >= walkArrival then Some(b.time - walkArrival) else None))
            && (r.laterWait.Some? ==>
                  exists b :: IsEarliestBusFrom(lines, from, b) && r.laterWait.value == b.time - walkArrival)
            && (r.laterWait.Some? ==> r.laterWait.value >= from - walkArrival)
            && (missed >= walkArrival ==> (r.laterWait.None? <==> NoneFrom(lines, from)))
  {
    var from := missed + MinuteMs;
    NextBusSpec(lines, from);
    var found := FindNextBus(lines, from);
    if found.Some? {
      forall b | IsEarliestBusFrom(lines, from, b)
        ensures b.time == found.value.time
      {
      }
    }
  }

  /** The urgency of catching bus: on demand for a temporary bus; otherwise
      the walking slack is compared with 3 and then 1 minutes and the
      running slack with half a minute. None means the bus is missed. */
  function Urgency(bus: Bus, walkArrival: int, runArrival: int): Option<Tier> {
    if bus.isTemporary then Some(OnDemand)
    else if bus.time - walkArrival >= LeewayMs then Some(Leeway)
    else if bus.time - walkArrival >= DepartSoonMs then Some(DepartSoon)
    else if bus.time - runArrival >= HurryMs then Some(Hurry)
    else None
  }

  /** The decision tree of generateMessage once findNextBus has found bus:
      a missed bus leads to the follow-up search; a caught one to the train
      search from thirteen minutes after the walking arrival on demand, or
      from ten minutes after the bus otherwise. */
  function Advise(loc: Location, now: int, lines: seq<BusLine>, trains: seq<ListedTrain>, bus: Bus): (r: Advice)
    ensures r.Board? || r.TakeLaterBus?
  {
    var walkArrival := now + loc.walk;
    match Urgency(bus, walkArrival, now + loc.run)
    case None => MissedBus(lines, bus.time, walkArrival)
    case Some(tier) =>
      var transfer := if bus.isTemporary then now + loc.walk + OnDemandRideMs else bus.time + BusTransferMs;
      Connect(tier, bus, walkArrival, transfer, trains)
  }

  /** Each tier holds exactly on its slack range, every bound inclusive; a
      boarded bus keeps its time, reports its wait from the walking arrival
      and searches trains from ten minutes after it, or thirteen minutes
      after the walking arrival on demand; a missed bus leads to the
      follow-up search. */
  lemma AdviseSpec(loc: Location, now: int, lines: seq<BusLine>, trains: seq<ListedTrain>, bus: Bus)
    ensures var r := Advise(loc, now, lines, trains, bus);
            var slack := bus.time - (now + loc.walk);
            var runSlack := bus.time - (now + loc.run);
            && (r.Board? && r.tier == OnDemand <==> bus.isTemporary)
            && (r.Board? && r.tier == Leeway <==> !bus.isTemporary && slack >= LeewayMs)
            && (r.Board? && r.tier == DepartSoon <==>
                  !bus.isTemporary && DepartSoonMs <= slack < LeewayMs)
            && (r.Board? && r.tier == Hurry <==>
                  !bus.isTemporary && slack < DepartSoonMs && runSlack >= HurryMs)
            && (r.TakeLaterBus? <==>
                  !bus.isTemporary && slack < DepartSoonMs && runSlack < HurryMs)
            && (r.Board? ==>
                  && r.busTime == bus.time
                  && r.busWait == slack
                  && r.transfer == (if bus.isTemporary then now + loc.walk + OnDemandRideMs
                                    else bus.time + BusTransferMs))
            && (r.TakeLaterBus? ==> r == MissedBus(lines, bus.time, now + loc.walk))
  {
    var walkArrival := now + loc.walk;
    var transfer := if bus.isTemporary then now + loc.walk + OnDemandRideMs else bus.time + BusTransferMs;
    var tier := Urgency(bus, walkArrival, now + loc.run);
    if tier.Some? {
      ConnectSpec(tier.value, bus, walkArrival, transfer, trains);
    }
  }

  /** A boarded bus's train is the earliest dated train at or after the
      transfer instant, or none when no dated train is, and its wait is
      measured from that instant; walking is advised exactly when the bus
      wait exceeds twenty minutes, on-demand buses included. */
  lemma AdviseTrain(loc: Location, now: int, lines: seq<BusLine>, trains: seq<ListedTrain>, bus: Bus)
    ensures var r := Advise(loc, now, lines, trains, bus);
            r.Board? ==>
              && (r.preferWalk <==> r.busWait > WalkAdvisoryMs)
              && (r.train.None? <==> forall c :: c in TrainCandidates(trains, r.transfer) ==> c.time < r.transfer)
              && (r.train.Some? ==>
                    && IsEarliestTrainFrom(TrainCandidates(trains, r.transfer), r.transfer,
                                           Train(r.train.value.time, r.train.value.destination))
                    && r.train.value.wait == TrainWaitOf(r.train.value.time - r.transfer))
  {
    var walkArrival := now + loc.walk;
    var tier := Urgency(bus, walkArrival, now + loc.run);
    if tier.Some? {
      var transfer := if bus.isTemporary then now + loc.walk + OnDemandRideMs else bus.time + BusTransferMs;
      ConnectSpec(tier.value, bus, walkArrival, transfer, trains);
    }
  }

  /** `generateMessage` of script.js for a building at instant now: the bus
      is searched from the walking arrival now + walk, and the decision tree
      is applied to what it finds. */
  function GenerateMessage(loc: Location, now: int, lines: seq<BusLine>, trains: seq<ListedTrain>): (r: Advice)
    ensures r.NoBusToday? <==> FindNextBus(lines, now + loc.walk).None?
  {
    match FindNextBus(lines, now + loc.walk)
    case None => NoBusToday
    case Some(bus) => Advise(loc, now, lines, trains, bus)
  }

  /** findNextTrain returns the first earliest dated train at or after its
      bound, whichever index the reference definition names. */
  lemma NextTrainIsFirstEarliest(trains: seq<ListedTrain>, bound: int, k: int)
    requires IsFirstEarliest(TrainTimes(TrainCandidates(trains, bound)), bound, k)
    ensures FindNextTrain(trains, bound) == Some(TrainCandidates(trains, bound)[k])
  {
    FirstEarliestIsScan(TrainTimes(TrainCandidates(trains, bound)), bound, k);
  }

  /** findNextBus returns the first earliest candidate at or after its
      bound, whichever index the reference definition names. */
  lemma NextBusIsFirstEarliest(lines: seq<BusLine>, bound: int, k: int)
    requires IsFirstEarliest(BusTimes(BusCandidates(lines, bound)), bound, k)
    ensures FindNextBus(lines, bound) == Some(BusCandidates(lines, bound)[k])
  {
    FirstEarliestIsScan(BusTimes(BusCandidates(lines, bound)), bound, k);
  }

  /** Once findNextBus has found a bus, the message is the decision tree
      applied to it. */
  lemma AdviceOfFoundBus(loc: Location, now: int, lines: seq<BusLine>, trains: seq<ListedTrain>, bus: Bus)
    requires FindNextBus(lines, now + loc.walk) == Some(bus)
    ensures GenerateMessage(loc, now, lines, trains) == Advise(loc, now, lines, trains, bus)
  {
  }

  /** Boarding a bus not before the walking arrival: the advice names that
      very bus, with its on-demand flag as the tier, and a wait that is not
      negative. */
  lemma BoardedAfterArrival(loc: Location, now: int, lines: seq<BusLine>, trains: seq<ListedTrain>, bus: Bus)
    requires bus.time >= now + loc.walk
    ensures var r := Advise(loc, now, lines, trains, bus);
            r.Board? ==>
              && Bus(r.busTime, r.tier == OnDemand) == bus
              && r.busWait == r.busTime - (now + loc.walk) >= 0
              && r.transfer == (if r.tier == OnDemand then now + loc.walk + OnDemandRideMs
                                else r.busTime + BusTransferMs)
  {
    AdviseSpec(loc, now, lines, trains, bus);
  }

  /** No bus today exactly when no candidate is at or after the walking
      arrival. */
  lemma NoBusTodayExactly(loc: Location, now: int, lines: seq<BusLine>, trains: seq<ListedTrain>)
    ensures GenerateMessage(loc, now, lines, trains).NoBusToday? <==> NoneFrom(lines, now + loc.walk)
  {
    NextBusSpec(lines, now + loc.walk);
  }

  /** A boarded bus is one of the candidates, its wait from the walking
      arrival is not negative, and the train search starts ten minutes
      after it, or thirteen minutes after the walking arrival for on-demand
      service. */
  lemma BoardedBus(loc: Location, now: int, lines: seq<BusLine>, trains: seq<ListedTrain>)
    ensures var r := GenerateMessage(loc, now, lines, trains);
            r.Board? ==>
              && Bus(r.busTime, r.tier == OnDemand) in BusCandidates(lines, now + loc.walk)
              && r.busWait == r.busTime - (now + loc.walk) >= 0
              && r.transfer == (if r.tier == OnDemand then now + loc.walk + OnDemandRideMs
                                else r.busTime + BusTransferMs)
  {
    var found := FindNextBus(lines, now + loc.walk);
    if found.Some? {
      NextBusSpec(lines, now + loc.walk);
      AdviceOfFoundBus(loc, now, lines, trains, found.value);
      BoardedAfterArrival(loc, now, lines, trains, found.value);
    }
  }

  /** The train and the walking advisory of a boarding message, as
      AdviseTrain states them. */
  lemma BoardedTrain(loc: Location, now: int, lines: seq<BusLine>, trains: seq<ListedTrain>)
    ensures var r := GenerateMessage(loc, now, lines, trains);
            r.Board? ==>
              && (r.preferWalk <==> r.busWait > WalkAdvisoryMs)
              && (r.train.None? <==> forall c :: c in TrainCandidates(trains, r.transfer) ==> c.time < r.transfer)
              && (r.train.Some? ==>
                    && IsEarliestTrainFrom(TrainCandidates(trains, r.transfer), r.transfer,
                                           Train(r.train.value.time, r.train.value.destination))
                    && r.train.value.wait == TrainWaitOf(r.train.value.time - r.transfer))
  {
    var found := FindNextBus(lines, now + loc.walk);
    if found.Some? {
      AdviceOfFoundBus(loc, now, lines, trains, found.value);
      AdviseTrain(loc, now, lines, trains, found.value);
    }
  }

  /** The tiers in terms of the reference definition of the next bus: the
      advice is about the first earliest candidate at or after the walking
      arrival, and its tier follows from that bus's slacks alone. */
  lemma DecisionTree(loc: Location, now: int, lines: seq<BusLine>, trains: seq<ListedTrain>, k: int)
    requires IsFirstEarliest(BusTimes(BusCandidates(lines, now + loc.walk)), now + loc.walk, k)
    ensures GenerateMessage(loc, now, lines, trains)
              == Advise(loc, now, lines, trains, BusCandidates(lines, now + loc.walk)[k])
  {
    NextBusIsFirstEarliest(lines, now + loc.walk, k);
    AdviceOfFoundBus(loc, now, lines, trains, BusCandidates(lines, now + loc.walk)[k]);
  }

  /** When the missed bus is not before the walking arrival, the follow-up
      wait is at least a minute, and it is missing exactly when no candidate
      remains from one minute after the missed bus. */
  lemma MissedAfterArrival(loc: Location, now: int, lines: seq<BusLine>, trains: seq<ListedTrain>, bus: Bus)
    requires bus.time >= now + loc.walk
    ensures var r := Advise(loc, now, lines, trains, bus);
            r.TakeLaterBus? ==>
              && r.missed == bus.time
              && (r.laterWait.None? <==>
                    NoneFrom(lines, bus.time + MinuteMs))
              && (r.laterWait.Some? ==> r.laterWait.value >= MinuteMs)
  {
    AdviseSpec(loc, now, lines, trains, bus);
    MissedBusSpec(lines, bus.time, now + loc.walk);
  }

  /** After a missed bus the message that no bus runs later today appears
      exactly when no candidate remains from one minute after the missed
      bus. */
  lemma MissedBusNoLater(loc: Location, now: int, lines: seq<BusLine>, trains: seq<ListedTrain>)
    ensures var r := GenerateMessage(loc, now, lines, trains);
            r.TakeLaterBus? ==>
              (r.laterWait.None? <==>
                 NoneFrom(lines, r.missed + MinuteMs))
  {
    var found := FindNextBus(lines, now + loc.walk);
    if found.Some? {
      AdviceOfFoundBus(loc, now, lines, trains, found.value);
      MissedAfterArrival(loc, now, lines, trains, found.value);
    }
  }

  /** After a missed bus the reported wait for the following bus is at
      least a minute. */
  lemma MissedBusLaterWait(loc: Location, now: int, lines: seq<BusLine>, trains: seq<ListedTrain>)
    ensures var r := GenerateMessage(loc, now, lines, trains);
            r.TakeLaterBus? && r.laterWait.Some? ==> r.laterWait.value >= MinuteMs
  {
    var found := FindNextBus(lines, now + loc.walk);
    if found.Some? {
      AdviceOfFoundBus(loc, now, lines, trains, found.value);
      MissedAfterArrival(loc, now, lines, trains, found.value);
    }
  }

  /** When the missed bus is not before the walking arrival, the reported
      follow-up wait is that of the earliest candidate from one minute after
      it, measured from the walking arrival. */
  lemma MissedAdviceWait(loc: Location, now: int, lines: seq<BusLine>, trains: seq<ListedTrain>, bus: Bus)
    requires bus.time >= now + loc.walk
    ensures var r := Advise(loc, now, lines, trains, bus);
            r.TakeLaterBus? ==>
              && (forall b :: IsEarliestBusFrom(lines, bus.time + MinuteMs, b) ==>
                    r.laterWait == Some(b.time - (now + loc.walk)))
              && (r.laterWait.Some? ==>
                    exists b :: IsEarliestBusFrom(lines, bus.time + MinuteMs, b)
                                && r.laterWait.value == b.time - (now + loc.walk))
  {
    AdviseSpec(loc, now, lines, trains, bus);
    MissedBusSpec(lines, bus.time, now + loc.walk);
  }

  /** A missed bus is the earliest candidate at or after the walking
      arrival, and it is a scheduled one, not an on-demand one. */
  lemma MissedIsEarliest(loc: Location, now: int, lines: seq<BusLine>, trains: seq<ListedTrain>)
    ensures var r := GenerateMessage(loc, now, lines, trains);
            r.TakeLaterBus? ==> IsEarliestBusFrom(lines, now + loc.walk, Bus(r.missed, false))
  {
    var found := FindNextBus(lines, now + loc.walk);
    if found.Some? {
      NextBusSpec(lines, now + loc.walk);
      AdviceOfFoundBus(loc, now, lines, trains, found.value);
      AdviseSpec(loc, now, lines, trains, found.value);
    }
  }

  /** In a full message the follow-up wait after a missed bus is that of
      the earliest candidate from one minute after it, measured from the
      walking arrival. */
  lemma MissedFollowUp(loc: Location, now: int, lines: seq<BusLine>, trains: seq<ListedTrain>)
    ensures var r := GenerateMessage(loc, now, lines, trains);
            r.TakeLaterBus? ==>
              && (forall b :: IsEarliestBusFrom(lines, r.missed + MinuteMs, b) ==>
                    r.laterWait == Some(b.time - (now + loc.walk)))
              && (r.laterWait.Some? ==>
                    exists b :: IsEarliestBusFrom(lines, r.missed + MinuteMs, b)
                                && r.laterWait.value == b.time - (now + loc.walk))
  {
    var found := FindNextBus(lines, now + loc.walk);
    if found.Some? {
      AdviceOfFoundBus(loc, now, lines, trains, found.value);
      AdviseSpec(loc, now, lines, trains, found.value);
      MissedAdviceWait(loc, now, lines, trains, found.value);
    }
  }

  /** A bus found from the walking arrival leaves the running arrival at
      least walk minus run ahead of it, so the missed-bus branch is taken
      only where running saves less than half a minute over walking. */
  lemma MissedNeedsSlowRun(loc: Location, now: int, lines: seq<BusLine>, trains: seq<ListedTrain>)
    ensures GenerateMessage(loc, now, lines, trains).TakeLaterBus? ==> loc.walk < loc.run + HurryMs
  {
    var found := FindNextBus(lines, now + loc.walk);
    if found.Some? {
      NextBusSpec(lines, now + loc.walk);
      AdviceOfFoundBus(loc, now, lines, trains, found.value);
      AdviseSpec(loc, now, lines, trains, found.value);
    }
  }

  /** From every building of the table, running saves at least a minute,
      so script.js never reports a missed bus: its message is no bus
      today or a bus to board. */
  lemma NoBuildingMisses(name: string, now: int, lines: seq<BusLine>, trains: seq<ListedTrain>)
    requires name in Locations
    ensures !GenerateMessage(Locations[name], now, lines, trains).TakeLaterBus?
  {
    LocationsWellFormed();
    MissedNeedsSlowRun(Locations[name], now, lines, trains);
  }

  /** The full pipeline of displayMessages for one building: trains are
      collected from the whole list, then the message is generated. */
  function Recommend(loc: Location, now: int, schedule: seq<RawRow>): (r: Advice)
    ensures r.NoBusToday? <==> NoneFrom(BusLines(schedule), now + loc.walk)
  {
    NoBusTodayExactly(loc, now, BusLines(schedule), CollectTrainTimes(schedule));
    GenerateMessage(loc, now, BusLines(schedule), CollectTrainTimes(schedule))
  }

  /** The lines' candidates are exactly the buses the schedule's rows
      offer. */
  ghost predicate SameCandidates(lines: seq<BusLine>, schedule: seq<RawRow>, bound: int) {
    forall b :: b in BusCandidates(lines, bound) <==> IsBusCandidate(schedule, bound, b)
  }

  /** The message over any bus lines whose candidates are exactly the buses
      the schedule's rows offer. */
  lemma MessageOverOffers(loc: Location, now: int, lines: seq<BusLine>, trains: seq<ListedTrain>, schedule: seq<RawRow>)
    requires SameCandidates(lines, schedule, now + loc.walk)
    ensures var r := GenerateMessage(loc, now, lines, trains);
            && (r.NoBusToday? <==>
                  forall b :: IsBusCandidate(schedule, now + loc.walk, b) ==> b.time < now + loc.walk)
            && (r.Board? ==> IsBusCandidate(schedule, now + loc.walk, Bus(r.busTime, r.tier == OnDemand)))
  {
    NoBusTodayExactly(loc, now, lines, trains);
    BoardedBus(loc, now, lines, trains);
  }

  /** Over the raw feed: no bus today exactly when no row offers a bus at or
      after the walking arrival, and a boarded bus is one some row offers. */
  lemma RecommendBus(loc: Location, now: int, schedule: seq<RawRow>)
    ensures var r := Recommend(loc, now, schedule);
            && (r.NoBusToday? <==>
                  forall b :: IsBusCandidate(schedule, now + loc.walk, b) ==> b.time < now + loc.walk)
            && (r.Board? ==> IsBusCandidate(schedule, now + loc.walk, Bus(r.busTime, r.tier == OnDemand)))
  {
    BusCandidatesOffered(schedule, now + loc.walk);
    MessageOverOffers(loc, now, BusLines(schedule), CollectTrainTimes(schedule), schedule);
  }
}

=== FILE: wrappers.dfy ===
/** The optional-value datatype used for absent feed fields, JavaScript `null`
    results and `NaN` numbers. */
module Wrappers {

  datatype Option<+T> = None | Some(value: T) {

    /** A field read with a fallback, as JavaScript's `x || default` reads
        a field that is absent: the value held, else default. */
    function GetOr(default: T): T {
      match this
      case Some(v) => v
      case None() => default
    }
  }
}
